=== FILE: README.md ===
# rPPG health monitor — a Dafny model of the signal and vitals core

The browser app estimates vital signs from a webcam. Each camera frame is
reduced to one averaged skin-colour sample. `RPPGProcessor` keeps the newest
300 samples. Once it holds at least 90, it normalises every channel against a
30-sample sliding mean and band-pass filters it to the pulse band
(0.75–4 Hz). `VitalsAnalyzer` is meant to turn these signals into vital
signs (as written, `vitals.js` fails to parse; see "Left out"):

- on the filtered green channel, it detects pulse peaks and derives the
  heart rate, a bounded RR-interval history and two variability statistics
  (SDNN and RMSSD); the respiration envelope is also taken from that
  channel;
- it estimates SpO2 from the normalised red and blue channels;
- it draws blood pressure and glucose from `Math.random()` alone, reading no
  signal at all;
- it clamps each of those three estimates to a fixed range (as written, a
  flat colour patch turns SpO2 into NaN, which the clamp lets through; see
  "Findings");
- it leaves those three estimates alone during a 90-frame calibration phase.

The model is functional. The processor and the analyzer are immutable
records, and each JavaScript method that mutates them becomes a function from
the old record to the new one. Signals are `seq<real>`. RR intervals are
`seq<int>`, because the source takes differences of sample indices.

| file | module | models |
|---|---|---|
| `wrappers.dfy` | `Wrappers` | the `Option` result of the readiness gate (`null` in the source) |
| `jsnumber.dfy` | `JsNumber` | JavaScript numbers with `NaN` and the infinities, for the SpO2 estimate as written |
| `stats.dfy` | `Stats` | sums, means, `Math.max`/`Math.min`, `Math.pow(x, 2)`, the 30-sample sliding mean, the keep-newest rule shared by `shift()` and `slice(-300)`, and the `Math.min(hi, Math.max(lo, v))` clamp |
| `rppg.dfy` | `Rppg` | `RPPGProcessor`: buffer push/shift, readiness gate, sliding-mean normaliser, band mask, one processing cycle |
| `peaks.dfy` | `Peaks` | `detectPeaks`, with a reference characterisation of its output |
| `vitals.dfy` | `VitalsAnalyzer` | `VitalsAnalyzer`: heart rate, RR history, HRV statistics, respiration envelope, SpO2 / pressure / glucose estimators, calibration, and the whole `updateVitals` step |

Where the code and its documented intent disagree, the model follows the code, with the one exception of SpO2:

- **Heart-rate units.** The heart rate is `60000 / mean(intervals)`, and the
  intervals are sample-index differences, not milliseconds. Peaks at indices
  30, 60 and 90 therefore report 2000, not 60 (`HeartRateOfIndexIntervals`).
- **Zero sliding mean.** The normaliser divides by the sliding mean without a
  guard. A zero mean is a precondition here, not a skipped sample.
- **Estimates on any signal.** Once calibration has ended, `updateVitals`
  recomputes SpO2, pressure and glucose on every cycle with signals, even when
  no peak was found.
- **SpO2 on degenerate channels.** This is the one place where the model
  departs from the code. SpO2 is computed with its divisions guarded
  (`SpO2Guarded`), and the code as written is kept beside it
  (`SpO2AsWritten`); see "Findings".
- **End of calibration.** The estimators test the calibration flag before the
  counter advances. The cycle that ends calibration therefore still leaves
  them alone (`CalibrationRun`).

## Model

| member | source | states |
|---|---|---|
| Stats.KeepNewest | static/js/static/js/static/js/vitals.js:59-62 | the kept history has length `min(n, |s|)` and is the suffix of `s` of that length, in order |
| Stats.Clamp | static/js/static/js/static/js/vitals.js:144 | `Math.min(hi, Math.max(lo, v))` lies in `[lo, hi]`; it is `v` inside the range and the nearer bound outside it |
| Stats.Max | static/js/static/js/static/js/vitals.js:76 | `Math.max(...s)` bounds every sample and is attained by one |
| Stats.Min | static/js/static/js/static/js/vitals.js:148-149 | `Math.min(...s)` is below every sample and is attained by one |
| Stats.SquareSign | static/js/static/js/static/js/vitals.js:97 | `Math.pow(d, 2)` is non-negative and zero exactly when `d` is zero |
| Stats.WindowMeanBounds | static/js/static/js/rppg.js:108-112 | a 30-sample mean of samples in `[lo, hi]` lies in `[lo, hi]` |
| Stats.WindowMeanConstant | static/js/static/js/rppg.js:108-112 | the 30-sample mean of a constant window is that constant |
| Stats.WindowMeanScale | static/js/static/js/rppg.js:108-112 | scaling a channel scales each of its 30-sample means by the same factor |
| Rppg.Push | static/js/static/js/rppg.js:74-77 | below capacity the sample is appended; at capacity the oldest sample is dropped as well; a buffer within 300 stays within 300 |
| Rppg.PushAllKeepsNewest | static/js/static/js/rppg.js:4 | after any run of pushes the buffer is exactly the newest 300 samples ever seen, in arrival order (FIFO) |
| Rppg.ReadyAfterMinSamples | static/js/static/js/rppg.js:83-85 | from an empty buffer, signals become available exactly when 90 samples have arrived |
| Rppg.NormalizeChannel | static/js/static/js/rppg.js:104-119 | one entry per sample past the first 30; entry `j` is the relative deviation of sample `j+30` from the mean `m` of the 30 samples before it (`m * y + m == x`) |
| Rppg.Normalize | static/js/static/js/rppg.js:98-122 | the red, green and blue normalised channels are the normaliser's output on the buffer's red, green and blue samples respectively, each of length `max(0, |buffer| - 30)` |
| Rppg.NormalizeConstant | static/js/static/js/rppg.js:108-117 | a constant nonzero channel is normalisable and normalises to all zeros |
| Rppg.NormalizeScaleInvariant | static/js/static/js/rppg.js:108-117 | multiplying a channel by a nonzero gain leaves its normalised form unchanged |
| Rppg.BandMask | static/js/static/js/rppg.js:141-147 | length is preserved; bin `k` is zeroed exactly when `k * fps / N` is below `lowCut` or above `highCut`, and is otherwise kept |
| Rppg.BandMaskCompose | static/js/static/js/rppg.js:141-147 | masking with two bands in turn equals masking once with their intersection |
| Rppg.BandMaskIdempotent | static/js/static/js/rppg.js:141-147 | masking an already masked spectrum changes nothing |
| Rppg.BandpassFilterOutOfBand | static/js/static/js/rppg.js:135-151 | two signals whose spectra agree on every bin between 0.75 and 4 Hz filter to the same output |
| Rppg.ApplyBandpassFilterOutOfBand | static/js/static/js/rppg.js:124-133 | each of the three channels is filtered with the same 30 fps, 0.75–4 Hz band, so channels agreeing in that band filter identically |
| Rppg.BandpassFilterPassesBand | static/js/static/js/rppg.js:135-151 | a signal whose spectrum is zero outside 0.75–4 Hz passes untouched: its output is the inverse transform of its own spectrum |
| Rppg.ApplyBandpassFilterPassesBand | static/js/static/js/rppg.js:124-133 | channel by channel, a red, green or blue channel confined to the band comes out as the inverse transform of that same channel's spectrum |
| Rppg.Preprocess | static/js/static/js/rppg.js:82-96 | no signals exactly when fewer than 90 samples are buffered; otherwise `raw` is the buffer, the normalised channels are the normaliser's output on it, each with `|buffer| - 30 >= 60` samples, and the filtered channels are the band-pass filter applied to those |
| Rppg.ExtractSignals | static/js/static/js/rppg.js:60-80 | the new buffer is the push of the sample onto the old one (so the FIFO-300 rule of `Push` applies to the running processor), the new sample ends it, it stays within 300, and the signals are the preprocessing of the new buffer: present exactly once 90 samples are held, with `raw` the updated buffer |
| Peaks.Scan | static/js/static/js/static/js/vitals.js:78-87 | the left-to-right scan keeps its invariant up to the last interior index: accepted peaks are ordered, candidates, spaced, and every skipped candidate lies in a refractory gap |
| Peaks.DetectPeaks | static/js/static/js/static/js/vitals.js:73-90 | the peaks are strictly increasing, interior (`1 <= i <= len-2`), above half the maximum, strictly above both neighbours and at least 20 apart; short signals have none; every candidate not returned lies within 20 samples after a returned peak |
| Peaks.DetectPeaksFixedPoint | static/js/static/js/static/js/vitals.js:78-87 | the result satisfies the greedy characterisation: `i` is a peak exactly when it is a candidate outside every earlier peak's refractory gap |
| Peaks.DetectPeaksUnique | static/js/static/js/static/js/vitals.js:78-87 | any increasing sequence satisfying that characterisation is the detector's result |
| Peaks.FlatSignalHasNoPeaks | static/js/static/js/static/js/vitals.js:79-81 | a constant signal has no peaks, so plateaus are never peaks |
| VitalsAnalyzer.Initial | static/js/static/js/static/js/vitals.js:2-18 | the constructed analyzer is calibrating with its counter at 0 and an empty RR history; heart rate, respiration rate, HRV and SDNN start at 0, SpO2 at 98, pressure at 120/80 and glucose at 100; and it satisfies the state invariant |
| VitalsAnalyzer.Intervals | static/js/static/js/static/js/vitals.js:53-56 | one interval per consecutive pair of peaks, equal to their index difference |
| VitalsAnalyzer.IntervalsSum | static/js/static/js/static/js/vitals.js:65 | the intervals sum to the distance from the first peak to the last |
| VitalsAnalyzer.HeartRateFromPeaks | static/js/static/js/static/js/vitals.js:65-66 | for spaced peaks the rate times the peak span is 60000 per interval, and the rate lies in `(0, 3000]` |
| VitalsAnalyzer.HeartRateOfIndexIntervals | static/js/static/js/static/js/vitals.js:55-66 | peaks at 30, 60 and 90 report 2000 |
| VitalsAnalyzer.Variance | static/js/static/js/static/js/vitals.js:96-98 | SDNN squared (the mean squared deviation from the mean) is non-negative and zero exactly on a constant RR history |
| VitalsAnalyzer.MeanSquaredSuccessive | static/js/static/js/static/js/vitals.js:101-105 | RMSSD squared (summed squared successive differences over `n - 1`) is non-negative and zero exactly on a constant RR history |
| VitalsAnalyzer.VarianceDivisor | static/js/static/js/static/js/vitals.js:96-98 | SDNN squared times the history length `n` is the sum of squared deviations from the mean: the divisor is `n` |
| VitalsAnalyzer.SuccessiveDivisorExample | static/js/static/js/static/js/vitals.js:101-105 | the history 0, 2, 2 has RMSSD squared `(4 + 0) / 2 = 2`: the divisor is `n - 1`, not `n` |
| VitalsAnalyzer.UpdateHRVMetrics | static/js/static/js/static/js/vitals.js:92-106 | fewer than two intervals change nothing; otherwise only the two statistics change, to the variance and the mean squared successive difference of the history; both are non-negative and each is zero exactly on a constant history |
| VitalsAnalyzer.RecordIntervals | static/js/static/js/static/js/vitals.js:59-62 | the history keeps the last `min(300, |old| + |new|)` entries of `old ++ new`, and stays spaced when both parts are |
| VitalsAnalyzer.SpacedPeaksIntervals | static/js/static/js/static/js/vitals.js:75-83 | every interval between detected peaks is at least 20, so all intervals are positive |
| VitalsAnalyzer.UpdateHeartRate | static/js/static/js/static/js/vitals.js:47-71 | fewer than two peaks change nothing; otherwise the history is extended as above, the intervals are spaced, the heart rate is that of this cycle's peaks, SDNN and RMSSD are recomputed on the new history, and calibration and every other vital are unchanged |
| VitalsAnalyzer.UpdateHeartRateBounds | static/js/static/js/static/js/vitals.js:65-69 | the heart rate stays put or lands in `(0, 3000]`, and the two variability statistics stay non-negative |
| VitalsAnalyzer.UpdateHeartRateHistory | static/js/static/js/static/js/vitals.js:59-62 | a bounded, spaced RR history stays within 300 entries and spaced |
| VitalsAnalyzer.FlatSignalKeepsHeartRate | static/js/static/js/static/js/vitals.js:51 | a flat signal leaves the analyzer unchanged |
| VitalsAnalyzer.ExtractRespirationSignal | static/js/static/js/static/js/vitals.js:118-130 | the envelope has one entry per sample past the first 30 |
| VitalsAnalyzer.RespirationSignalBounds | static/js/static/js/static/js/vitals.js:123-127 | every envelope entry lies within the range of the signal |
| VitalsAnalyzer.RespirationSignalConstant | static/js/static/js/static/js/vitals.js:123-127 | a constant signal has itself as envelope |
| VitalsAnalyzer.AcDcRatio | static/js/static/js/static/js/vitals.js:147-153 | peak-to-peak swing over the mean: the ratio has the sign of the channel mean |
| VitalsAnalyzer.AcDcRatioZeroIffFlat | static/js/static/js/static/js/vitals.js:147-153 | for any nonzero mean the AC/DC ratio is zero exactly when the channel is flat, and non-negative when the mean is positive |
| VitalsAnalyzer.SpO2Ratio | static/js/static/js/static/js/vitals.js:136-140 | the red-over-blue ratio of AC/DC ratios is zero exactly when the red channel is flat |
| VitalsAnalyzer.AcDcRatioAsWritten | static/js/static/js/static/js/vitals.js:147-153 | in JavaScript numbers: NaN on an empty channel, and the real AC/DC ratio wherever the mean is nonzero |
| VitalsAnalyzer.SpO2AsWritten | static/js/static/js/static/js/vitals.js:132-145 | the as-written estimate is NaN or a number in `[90, 100]`, and equals the clamped real estimate wherever no divisor is zero |
| VitalsAnalyzer.ZeroRedChannelSpO2NaN | static/js/static/js/static/js/vitals.js:136-153 | an all-zero red channel gives the AC/DC ratio 0 / 0 = NaN, and the estimate as written is NaN |
| VitalsAnalyzer.FlatPatchSpO2 | static/js/static/js/rppg.js:104-119 | a buffer of 90 to 300 samples with every colour at 128 is ready and normalisable, the as-written estimate on it is NaN, and the guarded one keeps the previous value |
| VitalsAnalyzer.SpO2Guarded | static/js/static/js/static/js/vitals.js:132-145 | with its divisions guarded, the estimate is not updated when a divisor is zero, and it stays in `[90, 100]` whenever the previous value was |
| VitalsAnalyzer.SpO2GuardedAgrees | static/js/static/js/static/js/vitals.js:132-153 | where no divisor is zero, the guarded estimate is exactly the as-written estimate |
| VitalsAnalyzer.SpO2FromRatio | static/js/static/js/static/js/vitals.js:140-144 | SpO2 lies in `[90, 100]` for every ratio and equals `110 - 25 * ratio` for ratios in `[0.4, 0.8]` |
| VitalsAnalyzer.SpO2Antitone | static/js/static/js/static/js/vitals.js:141-144 | a larger ratio never raises SpO2 |
| VitalsAnalyzer.Ptt | static/js/static/js/static/js/vitals.js:170-173 | for a draw in `[0, 1)` the pulse transit time lies in `[240, 260)` ms |
| VitalsAnalyzer.SystolicFromPtt | static/js/static/js/static/js/vitals.js:162-166 | systolic pressure lies in `[90, 180]` for every pulse transit time |
| VitalsAnalyzer.DiastolicFromPtt | static/js/static/js/static/js/vitals.js:163-167 | diastolic pressure lies in `[60, 120]` for every pulse transit time |
| VitalsAnalyzer.PressureForRandomDraw | static/js/static/js/static/js/vitals.js:170-173 | for a draw in `[0, 1)` the clamps never bind: systolic is in `(115, 125]`, diastolic in `(76, 84]` |
| VitalsAnalyzer.GlucoseEstimate | static/js/static/js/static/js/vitals.js:175-188 | glucose lies in `[70, 130]` for `'fasting'` and in `[110, 180]` otherwise, for every draw |
| VitalsAnalyzer.GlucoseForRandomDraw | static/js/static/js/static/js/vitals.js:179-182 | for a draw in `[0, 1)` the clamp never binds: `[90, 110)` fasting, `[130, 150)` otherwise |
| VitalsAnalyzer.UpdateSpO2 | static/js/static/js/static/js/vitals.js:132-145 | skipped while calibrating; otherwise only `spo2` changes, to the guarded estimate on the normalised channels |
| VitalsAnalyzer.UpdateBloodPressure | static/js/static/js/static/js/vitals.js:155-168 | skipped while calibrating; otherwise only the two pressures change |
| VitalsAnalyzer.UpdateGlucose | static/js/static/js/static/js/vitals.js:175-188 | skipped while calibrating; otherwise only `glucose` changes |
| VitalsAnalyzer.CalibrationStep | static/js/static/js/static/js/vitals.js:39-44 | the counter advances only while calibrating, the phase ends when the counter reaches 90, and nothing else changes |
| VitalsAnalyzer.UpdateVitals | static/js/static/js/static/js/vitals.js:20-45 | absent signals change nothing; otherwise the RR history, heart rate, SDNN and RMSSD are those of the heart-rate step on the filtered green channel and the respiration rate is the cycle's; the state invariant is preserved; the phase never returns; while calibrating SpO2, pressure and glucose keep their values; afterwards SpO2 is the guarded estimate on the normalised channels and stays in range, and pressure and glucose are the clamped estimates of this cycle's draws and land in their ranges |
| VitalsAnalyzer.RunValid | static/js/static/js/static/js/vitals.js:2-45 | every run of cycles from the constructed analyzer keeps the state invariant |
| VitalsAnalyzer.CalibrationRun | static/js/static/js/static/js/vitals.js:39-44 | over any run the counter is `min(processed, 90)`, the phase ends exactly with the 90th processed frame, and until then SpO2, pressure and glucose keep their initial values |

## Left out

- Camera capture, face detection, canvas drawing and the cascade download (`initializeFaceDetector`, `processVideoFrame`) are I/O. The sample `extractSignals` buffers is an input, because its colour means and timestamp come from OpenCV and the clock.
- The page wiring, loops and formatting in `app.js` are left out.
- The `FFT` class is floating-point trigonometry and enters only as an opaque `Transform` pair. Its `dft` returns magnitudes only, so the filter is not a true band-pass; nothing is claimed about the transform.
- `updateRespirationRate` and `findMaxFrequency` are left out. `findMaxFrequency` declares `maxIndex` twice in one block (`let` then `const`), which is an early SyntaxError in JavaScript, and it reads DFT output anyway. The step takes the respiration rate as an input. `ExtractRespirationSignal` models the envelope that feeds it.
- `Math.random()` in `estimatePTT` and `updateGlucose` becomes a real parameter. The clamp properties hold for every real value.
- `Math.sqrt` in `updateHRVMetrics` is not modelled. The vitals record keeps SDNN and RMSSD squared (`sdnnSquared`, `hrvSquared`).
- VitalsAnalyzer.UpdateVitals: computes SpO2 with the guarded estimate, not as written. The SpO2 range it promises therefore holds for the model only. As written, a zero divisor in `calculateACDCRatio` or in the ratio of ratios gives `NaN` or an infinity. `NaN` passes through `Math.min(100, Math.max(90, …))`, so a flat colour patch reports SpO2 as `NaN` (see "Findings"). An infinite ratio gives the bound 90 or 100, where the guarded estimate keeps the previous value instead. `SpO2AsWritten` models the estimate as written.
- Rppg.NormalizeChannel: requires every 30-sample mean to be nonzero. The source divides unguarded, and the resulting `Infinity`/`NaN` is not representable.
- Rounding of IEEE doubles is not modelled; arithmetic is exact over reals. Rppg.NormalizeConstant, Stats.WindowMeanConstant and VitalsAnalyzer.RespirationSignalConstant hold exactly only over reals: in doubles, thirty samples of 0.1 sum to slightly more than 3, so the normalised value is a tiny nonzero number. Comparisons at exact ties (band edges, the peak threshold) may also fall the other way in doubles.
- As written, `vitals.js` does not load at all: the duplicate `maxIndex` declaration is an early error, which rejects the whole script, so `VitalsAnalyzer` is never defined and `new VitalsAnalyzer()` in `app.js` throws. The model describes the analyzer as it would run with the second declaration renamed: `const maxIndex` at `vitals.js:196` becomes a fresh name, and the loop bound at line 198 uses it. Removing either declaration instead changes the step. Without the `let`, the assignment at line 201 targets a `const` and throws a TypeError, which aborts the cycle before `updateSpO2` and the calibration step. Without the `const`, the loop bound is 0 and the respiration rate is always 0.
- Rppg.Preprocess: `raw` is the buffer's value at the time of the cycle. The source hands out a live reference to `frameBuffer`, which later pushes and shifts change. Nothing downstream reads `raw`.
- `lastPeakTime` is set in the constructor and never used again, so it is not part of the state.
- `updateVitals` is `async` but awaits nothing. The model treats each call as one atomic step.
- The `!signals.filtered` guard of `updateVitals` is folded into the `Option`: a present `Signals` value always carries its filtered channels.

## Findings

| source | as written | input that shows it | evidently intended | confidence | as-written member | corrected member |
|---|---|---|---|---|---|---|
| static/js/static/js/static/js/vitals.js:136-153 | `calculateACDCRatio` divides by the channel mean and `updateSpO2` divides by the blue ratio, both without a guard. The resulting `NaN` passes through the `[90, 100]` clamp. | A patch with every colour mean 128 that fills the whole buffer. Every 30-sample mean is then 128, so every normalised entry is 0, and the red AC/DC ratio is 0 / 0 = `NaN`. The estimator runs only after calibration, which takes 90 processed cycles. Processing starts at frame 90, when 90 samples are held. So a patch present from camera start first reports `NaN` at frame 180, the 91st processed cycle (6 s at 30 fps); up to then `spo2` stays 98 (`CalibrationRun`). A patch that follows other input reports `NaN` once it fills the 300-sample buffer (10 s). | a zero divisor skips the update, so SpO2 always stays in `[90, 100]`, including on all-equal signals | not executed | VitalsAnalyzer.SpO2AsWritten, VitalsAnalyzer.FlatPatchSpO2 | VitalsAnalyzer.SpO2Guarded, VitalsAnalyzer.SpO2GuardedAgrees |

=== FILE: jsnumber.dfy ===
/** JavaScript numbers without rounding: the special values of IEEE 754
    doubles that an unguarded division brings into the vitals estimators. */
module JsNumber {
  import opened Stats

  /** A JavaScript number up to rounding: a finite real, a signed infinity,
      or NaN.  Signed zero is not represented; a zero divisor acts as +0. */
  datatype Num = Finite(value: real) | Infinite(positive: bool) | NaN

  function Neg(a: Num): (r: Num)
    ensures r.NaN? <==> a.NaN?
  {
    match a
    case Finite(x) => Finite(-x)
    case Infinite(p) => Infinite(!p)
    case NaN => NaN
  }

  /** `a + b`: NaN is absorbing, and opposite infinities give NaN. */
  function Add(a: Num, b: Num): (r: Num)
    ensures a.NaN? || b.NaN? ==> r.NaN?
    ensures a.Finite? && b.Finite? ==> r == Finite(a.value + b.value)
  {
    match (a, b)
    case (NaN, _) => NaN
    case (_, NaN) => NaN
    case (Finite(x), Finite(y)) => Finite(x + y)
    case (Infinite(p), Infinite(q)) => if p == q then a else NaN
    case (Infinite(_), Finite(_)) => a
    case (Finite(_), Infinite(_)) => b
  }

  function Sub(a: Num, b: Num): (r: Num)
    ensures a.NaN? || b.NaN? ==> r.NaN?
    ensures a.Finite? && b.Finite? ==> r == Finite(a.value - b.value)
  {
    Add(a, Neg(b))
  }

  /** `a * b`: zero times an infinity is NaN. */
  function Mul(a: Num, b: Num): (r: Num)
    ensures a.NaN? || b.NaN? ==> r.NaN?
    ensures a.Finite? && b.Finite? ==> r == Finite(a.value * b.value)
  {
    if a.Finite? && b.Finite? then Finite(a.value * b.value)
    else match (a, b)
    case (NaN, _) => NaN
    case (_, NaN) => NaN
    case (Finite(x), Finite(_)) => a
    case (Finite(x), Infinite(q)) => if x == 0.0 then NaN else Infinite(q == (x > 0.0))
    case (Infinite(p), Finite(y)) => if y == 0.0 then NaN else Infinite(p == (y > 0.0))
    case (Infinite(p), Infinite(q)) => Infinite(p == q)
  }

  /** `a / b`: zero over zero and infinity over infinity are NaN; a nonzero
      finite number over zero is an infinity. */
  function Div(a: Num, b: Num): (r: Num)
    ensures a.NaN? || b.NaN? ==> r.NaN?
    ensures a.Finite? && b.Finite? && b.value != 0.0 ==> r == Finite(a.value / b.value)
    ensures a == Finite(0.0) && b == Finite(0.0) ==> r.NaN?
  {
    match (a, b)
    case (NaN, _) => NaN
    case (_, NaN) => NaN
    case (Finite(x), Finite(y)) =>
      if y != 0.0 then Finite(x / y) else if x == 0.0 then NaN else Infinite(x > 0.0)
    case (Finite(_), Infinite(_)) => Finite(0.0)
    case (Infinite(p), Finite(y)) => Infinite(p == (y >= 0.0))
    case (Infinite(_), Infinite(_)) => NaN
  }

  /** The order of the non-NaN numbers: minus infinity, the reals, plus
      infinity. */
  predicate Below(a: Num, b: Num)
  {
    match (a, b)
    case (NaN, _) => false
    case (_, NaN) => false
    case (Finite(x), Finite(y)) => x < y
    case (Infinite(p), Infinite(q)) => !p && q
    case (Infinite(p), _) => !p
    case (_, Infinite(q)) => q
  }

  /** `Math.max(a, b)`: NaN if either argument is NaN. */
  function MathMax(a: Num, b: Num): (r: Num)
    ensures r.NaN? <==> a.NaN? || b.NaN?
    ensures !r.NaN? ==> (r == a || r == b) && !Below(r, a) && !Below(r, b)
  {
    if a.NaN? || b.NaN? then NaN else if Below(a, b) then b else a
  }

  /** `Math.min(a, b)`: NaN if either argument is NaN. */
  function MathMin(a: Num, b: Num): (r: Num)
    ensures r.NaN? <==> a.NaN? || b.NaN?
    ensures !r.NaN? ==> (r == a || r == b) && !Below(a, r) && !Below(b, r)
  {
    if a.NaN? || b.NaN? then NaN else if Below(b, a) then b else a
  }

  /** `Math.min(hi, Math.max(lo, v))`: the clamp of the reals on finite
      input, the nearer bound on an infinity, and NaN straight through. */
  function ClampNum(v: Num, lo: real, hi: real): (r: Num)
    requires lo <= hi
    ensures r.NaN? <==> v.NaN?
    ensures v.Finite? ==> r == Finite(Clamp(v.value, lo, hi))
    ensures v.Infinite? ==> r == Finite(if v.positive then hi else lo)
  {
    MathMin(Finite(hi), MathMax(Finite(lo), v))
  }
}

=== FILE: peaks.dfy ===
/** Pulse-peak detection (`detectPeaks`): strict local maxima above half the
    signal maximum, accepted greedily from left to right with a refractory
    gap of `MinPeakDistance` samples after every accepted peak. */
module Peaks {
  import opened Stats

  /** Refractory gap between accepted peaks, in samples (about 0.6 s). */
  const MinPeakDistance: int := 20

  /** Half the signal maximum. */
  function Threshold(s: seq<real>): real
    requires |s| > 0
  {
    0.5 * Max(s)
  }

  /** Index `i` is an interior sample above the threshold and strictly above
      both neighbours. */
  predicate IsCandidate(s: seq<real>, threshold: real, i: int)
  {
    1 <= i < |s| - 1 && s[i] > threshold && s[i] > s[i - 1] && s[i] > s[i + 1]
  }

  predicate StrictlyIncreasing(p: seq<int>)
  {
    forall a, b :: 0 <= a < b < |p| ==> p[a] < p[b]
  }

  /** Consecutive peaks are at least `MinPeakDistance` apart. */
  predicate Spaced(p: seq<int>)
  {
    forall k :: 0 < k < |p| ==> p[k] - p[k - 1] >= MinPeakDistance
  }

  /** Index `i` falls inside the refractory gap of some peak of `p`. */
  predicate Refractory(p: seq<int>, i: int)
  {
    exists k :: 0 <= k < |p| && p[k] < i < p[k] + MinPeakDistance
  }

  /** The greedy scan's invariant over the candidates before `upto`: the
      accepted peaks are ordered, spaced candidates, and every candidate
      before `upto` was either accepted or fell into a refractory gap. */
  predicate ScanInvariant(s: seq<real>, threshold: real, upto: int, p: seq<int>)
  {
    && StrictlyIncreasing(p)
    && Spaced(p)
    && (forall k :: 0 <= k < |p| ==> IsCandidate(s, threshold, p[k]) && p[k] < upto)
    && (forall i :: 1 <= i < upto && IsCandidate(s, threshold, i) ==> i in p || Refractory(p, i))
  }

  /** Index `i` passes the refractory test of `detectPeaks` against `acc`. */
  predicate Accepts(acc: seq<int>, i: int)
  {
    |acc| == 0 || i - acc[|acc| - 1] >= MinPeakDistance
  }

  /** Accepting candidate `i` keeps the scan invariant. */
  lemma AcceptStep(s: seq<real>, threshold: real, i: int, acc: seq<int>)
    requires 1 <= i && ScanInvariant(s, threshold, i, acc)
    requires IsCandidate(s, threshold, i) && Accepts(acc, i)
    ensures ScanInvariant(s, threshold, i + 1, acc + [i])
  {
    var acc' := acc + [i];
    forall a, b | 0 <= a < b < |acc'| ensures acc'[a] < acc'[b] {
      if b < |acc| { assert acc'[a] == acc[a] && acc'[b] == acc[b]; }
      else { assert acc'[a] == acc[a] < i; }
    }
    forall k | 0 < k < |acc'| ensures acc'[k] - acc'[k - 1] >= MinPeakDistance {
      if k < |acc| { assert acc'[k] == acc[k] && acc'[k - 1] == acc[k - 1]; }
    }
    forall k | 0 <= k < |acc'| ensures IsCandidate(s, threshold, acc'[k]) && acc'[k] < i + 1 {
      if k < |acc| { assert acc'[k] == acc[k]; }
    }
    forall j | 1 <= j < i + 1 && IsCandidate(s, threshold, j) ensures j in acc' || Refractory(acc', j) {
      if j < i && j !in acc {
        var k :| 0 <= k < |acc| && acc[k] < j < acc[k] + MinPeakDistance;
        assert acc'[k] == acc[k];
      }
    }
  }

  /** Passing over index `i` (not a candidate, or refractory) keeps the scan invariant. */
  lemma SkipStep(s: seq<real>, threshold: real, i: int, acc: seq<int>)
    requires 1 <= i && ScanInvariant(s, threshold, i, acc)
    requires !(IsCandidate(s, threshold, i) && Accepts(acc, i))
    ensures ScanInvariant(s, threshold, i + 1, acc)
  {
    if IsCandidate(s, threshold, i) {
      assert acc[|acc| - 1] < i < acc[|acc| - 1] + MinPeakDistance;
      assert Refractory(acc, i);
    }
  }

  /** The loop of `detectPeaks` from index `i` on, with `acc` accepted so far. */
  function Scan(s: seq<real>, threshold: real, i: int, acc: seq<int>): (p: seq<int>)
    requires 1 <= i
    requires ScanInvariant(s, threshold, i, acc)
    ensures ScanInvariant(s, threshold, if i < |s| - 1 then |s| - 1 else i, p)
    ensures acc <= p
    decreases |s| - i
  {
    if i >= |s| - 1 then acc
    else if IsCandidate(s, threshold, i) && Accepts(acc, i) then
      AcceptStep(s, threshold, i, acc);
      Scan(s, threshold, i + 1, acc + [i])
    else
      SkipStep(s, threshold, i, acc);
      Scan(s, threshold, i + 1, acc)
  }

  /** `detectPeaks`: the accepted peak indices of a signal, in order. */
  function DetectPeaks(s: seq<real>): (p: seq<int>)
    ensures StrictlyIncreasing(p) && Spaced(p)
    ensures forall k :: 0 <= k < |p| ==> 1 <= p[k] <= |s| - 2
    ensures forall k :: 0 <= k < |p| ==>
      var i := p[k]; s[i] > 0.5 * Max(s) && s[i] > s[i - 1] && s[i] > s[i + 1]
    ensures |s| < 3 ==> p == []
    ensures forall i :: |s| > 0 && IsCandidate(s, Threshold(s), i) ==> i in p || Refractory(p, i)
  {
    if |s| == 0 then [] else Scan(s, Threshold(s), 1, [])
  }

  /** The greedy rule as a fixed point: an index is a peak of `p` exactly
      when it is a candidate outside every refractory gap of `p`. */
  ghost predicate GreedyFixedPoint(s: seq<real>, threshold: real, p: seq<int>)
  {
    forall i :: i in p <==> IsCandidate(s, threshold, i) && !Refractory(p, i)
  }

  /** Spaced, ordered peaks never lie in each other's refractory gaps. */
  lemma SpacedNotRefractory(p: seq<int>, m: int)
    requires StrictlyIncreasing(p) && Spaced(p)
    requires 0 <= m < |p|
    ensures !Refractory(p, p[m])
  {
    forall k | 0 <= k < |p| && p[k] < p[m]
      ensures p[k] + MinPeakDistance <= p[m]
    {
      assert k < m;
      assert p[k] <= p[m - 1];
    }
  }

  /** Both directions: `detectPeaks` returns exactly the candidates that are
      not refractory with respect to its own output. */
  lemma DetectPeaksFixedPoint(s: seq<real>)
    requires |s| > 0
    ensures GreedyFixedPoint(s, Threshold(s), DetectPeaks(s))
  {
    var p := DetectPeaks(s);
    forall i
      ensures i in p <==> IsCandidate(s, Threshold(s), i) && !Refractory(p, i)
    {
      if i in p {
        var m :| 0 <= m < |p| && p[m] == i;
        SpacedNotRefractory(p, m);
      }
    }
  }

  /** Refractoriness at `i` depends only on the peaks below `i`. */
  lemma RefractoryBelow(p: seq<int>, q: seq<int>, i: int)
    requires forall j :: j < i ==> (j in p <==> j in q)
    ensures Refractory(p, i) ==> Refractory(q, i)
  {
    if Refractory(p, i) {
      var k :| 0 <= k < |p| && p[k] < i < p[k] + MinPeakDistance;
      assert p[k] in q;
      var m :| 0 <= m < |q| && q[m] == p[k];
    }
  }

  /** Two fixed points of the greedy rule have the same members below any bound. */
  lemma {:induction false} FixedPointsAgree(s: seq<real>, threshold: real, p: seq<int>, q: seq<int>, n: int)
    requires GreedyFixedPoint(s, threshold, p) && GreedyFixedPoint(s, threshold, q)
    ensures forall j :: j < n ==> (j in p <==> j in q)
    decreases if n < 1 then 0 else n
  {
    if n >= 1 {
      FixedPointsAgree(s, threshold, p, q, n - 1);
      RefractoryBelow(p, q, n - 1);
      RefractoryBelow(q, p, n - 1);
    }
  }

  /** Ordered sequences with the same members are equal. */
  lemma {:induction false} IncreasingSameMembers(p: seq<int>, q: seq<int>)
    requires StrictlyIncreasing(p) && StrictlyIncreasing(q)
    requires forall j :: j in p <==> j in q
    ensures p == q
    decreases |p|
  {
    if |p| == 0 {
      assert forall j :: j !in q;
      NonEmptyHasMember(q);
    } else {
      assert p[0] in p;
      assert |q| > 0 && q[0] in q;
      assert p[0] == q[0] by {
        var a :| 0 <= a < |p| && p[a] == q[0];
        var b :| 0 <= b < |q| && q[b] == p[0];
      }
      forall j ensures j in p[1..] <==> j in q[1..] {
        if j in p[1..] {
          var a :| 1 <= a < |p| && p[a] == j;
          assert j in q && j != q[0];
        }
        if j in q[1..] {
          var b :| 1 <= b < |q| && q[b] == j;
          assert j in p && j != p[0];
        }
      }
      IncreasingSameMembers(p[1..], q[1..]);
      assert p == [p[0]] + p[1..] && q == [q[0]] + q[1..];
    }
  }

  /** Reference definition: `detectPeaks` is the one ordered sequence that
      satisfies the greedy rule. */
  lemma DetectPeaksUnique(s: seq<real>, q: seq<int>)
    requires |s| > 0
    requires StrictlyIncreasing(q) && GreedyFixedPoint(s, Threshold(s), q)
    ensures q == DetectPeaks(s)
  {
    var p := DetectPeaks(s);
    DetectPeaksFixedPoint(s);
    forall j ensures j in p <==> j in q {
      FixedPointsAgree(s, Threshold(s), p, q, j + 1);
    }
    IncreasingSameMembers(p, q);
  }

  lemma NonEmptyHasMember(p: seq<int>)
    ensures |p| > 0 ==> p[0] in p
  {
  }

  /** A flat signal has no peaks, so it never moves the heart rate. */
  lemma FlatSignalHasNoPeaks(s: seq<real>, c: real)
    requires forall k :: 0 <= k < |s| ==> s[k] == c
    ensures DetectPeaks(s) == []
  {
    var p := DetectPeaks(s);
    assert forall i :: 1 <= i < |s| ==> !(s[i] > s[i - 1]);
    assert forall i :: i !in p;
    NonEmptyHasMember(p);
  }
}

=== FILE: rppg.dfy ===
/** The signal half of the pipeline (`RPPGProcessor`): a rolling buffer of
    averaged skin-colour samples, the readiness gate, the sliding-mean
    normaliser and the frequency mask of the band-pass filter.  The camera,
    face detection and the discrete Fourier transform stay outside; the
    transform enters as a pair of opaque functions. */
module Rppg {
  import opened Stats
  import opened Wrappers

  /** Capacity of the rolling buffer (10 s at 30 frames per second). */
  const BufferSize: nat := 300
  /** Samples needed before any downstream stage runs (3 s). */
  const MinSamples: nat := 90
  /** Sampling rate the band-pass filter assumes. */
  const Fps: real := 30.0
  /** Pulse band of the band-pass filter, in Hz. */
  const LowCutHz: real := 0.75
  const HighCutHz: real := 4.0

  /** One averaged colour sample of the region of interest. */
  datatype Sample = Sample(r: real, g: real, b: real, timestamp: int)

  datatype Channel = Red | Green | Blue

  /** Three parallel per-channel signals. */
  datatype Channels = Channels(r: seq<real>, g: seq<real>, b: seq<real>)

  /** What one processing cycle hands to the analyzer. */
  datatype Signals = Signals(raw: seq<Sample>, normalized: Channels, filtered: Channels)

  /** Forward and inverse spectral transform; their arithmetic is not modelled. */
  datatype Transform = Transform(forward: seq<real> -> seq<real>, inverse: seq<real> -> seq<real>)

  /** The processor's only state. */
  datatype Processor = Processor(frameBuffer: seq<Sample>)

  function Value(s: Sample, c: Channel): real
  {
    match c
    case Red => s.r
    case Green => s.g
    case Blue => s.b
  }

  /** One channel of the buffer as a signal. */
  function Project(buf: seq<Sample>, c: Channel): (xs: seq<real>)
    ensures |xs| == |buf|
    ensures forall k :: 0 <= k < |buf| ==> xs[k] == Value(buf[k], c)
  {
    seq(|buf|, k requires 0 <= k < |buf| => Value(buf[k], c))
  }

  // ---------------------------------------------------------------- buffer

  /** Append a sample, then drop the oldest one if the buffer overflowed. */
  function Push(buf: seq<Sample>, sample: Sample): (r: seq<Sample>)
    ensures |buf| <= BufferSize ==> |r| <= BufferSize
    ensures |buf| < BufferSize ==> r == buf + [sample]
    ensures |buf| >= BufferSize ==> r == buf[1..] + [sample]
  {
    var pushed := buf + [sample];
    if |pushed| > BufferSize then pushed[1..] else pushed
  }

  /** Push a run of samples in arrival order. */
  function PushAll(buf: seq<Sample>, samples: seq<Sample>): seq<Sample>
    decreases |samples|
  {
    if |samples| == 0 then buf
    else Push(PushAll(buf, samples[..|samples| - 1]), samples[|samples| - 1])
  }

  /** FIFO: however many samples arrive, the buffer holds exactly the newest
      `BufferSize` of everything seen, in arrival order. */
  lemma {:induction false} PushAllKeepsNewest(buf: seq<Sample>, samples: seq<Sample>)
    requires |buf| <= BufferSize
    ensures PushAll(buf, samples) == KeepNewest(buf + samples, BufferSize)
    decreases |samples|
  {
    if |samples| > 0 {
      var init := samples[..|samples| - 1];
      var x := samples[|samples| - 1];
      PushAllKeepsNewest(buf, init);
      assert PushAll(buf, samples) == Push(KeepNewest(buf + init, BufferSize), x);
      assert buf + samples == (buf + init) + [x];
      PushNewest(buf + init, x);
    }
  }

  /** One push keeps the newest window of the history extended by one. */
  lemma PushNewest(s: seq<Sample>, x: Sample)
    ensures Push(KeepNewest(s, BufferSize), x) == KeepNewest(s + [x], BufferSize)
  {
    if |s| >= BufferSize {
      assert KeepNewest(s, BufferSize)[1..] + [x] == (s + [x])[|s| + 1 - BufferSize..];
    }
  }

  /** The pipeline produces signals exactly when the buffer holds `MinSamples`. */
  predicate IsReady(buf: seq<Sample>)
  {
    |buf| >= MinSamples
  }

  /** Starting from an empty buffer, readiness arrives with the 90th sample
      and the buffer never grows past its capacity. */
  lemma ReadyAfterMinSamples(samples: seq<Sample>)
    ensures IsReady(PushAll([], samples)) <==> |samples| >= MinSamples
    ensures |PushAll([], samples)| == if |samples| <= BufferSize then |samples| else BufferSize
  {
    PushAllKeepsNewest([], samples);
    assert [] + samples == samples;
  }

  // ------------------------------------------------------------ normaliser

  /** Every sliding mean the normaliser divides by is nonzero; the source
      divides without checking. */
  predicate NonzeroWindowMeans(xs: seq<real>)
  {
    forall i :: WindowSize <= i < |xs| ==> WindowMean(xs, i) != 0.0
  }

  /** Relative variation of each sample past the first window against the
      mean of the `WindowSize` samples before it. */
  function NormalizeChannel(xs: seq<real>): (ys: seq<real>)
    requires NonzeroWindowMeans(xs)
    ensures |ys| == if |xs| > WindowSize then |xs| - WindowSize else 0
    ensures forall j :: 0 <= j < |ys| ==>
      var m := WindowMean(xs, j + WindowSize); m * ys[j] + m == xs[j + WindowSize]
  {
    if |xs| <= WindowSize then []
    else
      seq(|xs| - WindowSize, j requires 0 <= j < |xs| - WindowSize =>
        var m := WindowMean(xs, j + WindowSize); (xs[j + WindowSize] - m) / m)
  }

  predicate Normalizable(buf: seq<Sample>)
  {
    && NonzeroWindowMeans(Project(buf, Red))
    && NonzeroWindowMeans(Project(buf, Green))
    && NonzeroWindowMeans(Project(buf, Blue))
  }

  /** The three normalised channels of a buffer. */
  function Normalize(buf: seq<Sample>): (n: Channels)
    requires Normalizable(buf)
    ensures n.r == NormalizeChannel(Project(buf, Red))
    ensures n.g == NormalizeChannel(Project(buf, Green))
    ensures n.b == NormalizeChannel(Project(buf, Blue))
    ensures |n.r| == |n.g| == |n.b| == if |buf| > WindowSize then |buf| - WindowSize else 0
  {
    Channels(NormalizeChannel(Project(buf, Red)),
             NormalizeChannel(Project(buf, Green)),
             NormalizeChannel(Project(buf, Blue)))
  }

  /** A constant nonzero channel normalises to all zeros. */
  lemma NormalizeConstant(xs: seq<real>, c: real)
    requires c != 0.0
    requires forall k :: 0 <= k < |xs| ==> xs[k] == c
    ensures NonzeroWindowMeans(xs)
    ensures forall j :: 0 <= j < |NormalizeChannel(xs)| ==> NormalizeChannel(xs)[j] == 0.0
  {
    forall i | WindowSize <= i <= |xs|
      ensures WindowMean(xs, i) == c
    {
      WindowMeanConstant(xs, i, c);
    }
  }

  /** Scaling a channel by a nonzero gain (a brighter or darker skin tone)
      leaves its normalised form unchanged. */
  lemma NormalizeScaleInvariant(xs: seq<real>, ys: seq<real>, c: real)
    requires c != 0.0
    requires |xs| == |ys|
    requires forall k :: 0 <= k < |xs| ==> ys[k] == c * xs[k]
    requires NonzeroWindowMeans(xs)
    ensures NonzeroWindowMeans(ys)
    ensures NormalizeChannel(ys) == NormalizeChannel(xs)
  {
    ScaledWindowMeans(xs, ys, c);
    var a := NormalizeChannel(xs);
    var b := NormalizeChannel(ys);
    forall j | 0 <= j < |a|
      ensures b[j] == a[j]
    {
      NormalizeChannelAt(xs, j);
      NormalizeChannelAt(ys, j);
      RelativeChangeScale(xs[j + WindowSize], WindowMean(xs, j + WindowSize), c);
    }
  }

  /** Every sliding mean of the scaled channel is the scaled sliding mean,
      so none of them is zero either. */
  lemma ScaledWindowMeans(xs: seq<real>, ys: seq<real>, c: real)
    requires c != 0.0
    requires |xs| == |ys|
    requires forall k :: 0 <= k < |xs| ==> ys[k] == c * xs[k]
    requires NonzeroWindowMeans(xs)
    ensures forall i :: WindowSize <= i <= |xs| ==> WindowMean(ys, i) == c * WindowMean(xs, i)
    ensures NonzeroWindowMeans(ys)
  {
    forall i | WindowSize <= i <= |xs|
      ensures WindowMean(ys, i) == c * WindowMean(xs, i)
    {
      WindowMeanScale(xs, ys, i, c);
    }
    forall i | WindowSize <= i < |ys|
      ensures WindowMean(ys, i) != 0.0
    {
      ProductNonzero(c, WindowMean(xs, i));
    }
  }

  lemma ProductNonzero(a: real, b: real)
    requires a != 0.0 && b != 0.0
    ensures a * b != 0.0
  {
  }

  /** Entry `j` of a normalised channel, read off the definition. */
  lemma NormalizeChannelAt(xs: seq<real>, j: int)
    requires NonzeroWindowMeans(xs)
    requires 0 <= j < |xs| - WindowSize
    ensures NormalizeChannel(xs)[j]
         == (xs[j + WindowSize] - WindowMean(xs, j + WindowSize)) / WindowMean(xs, j + WindowSize)
  {
  }

  /** A common nonzero factor cancels from a relative change. */
  lemma RelativeChangeScale(x: real, m: real, c: real)
    requires c != 0.0 && m != 0.0
    ensures (c * x - c * m) / (c * m) == (x - m) / m
  {
    assert c * x - c * m == c * (x - m);
  }

  // ------------------------------------------------------------ band mask

  /** Frequency of bin `k` of an `n`-point spectrum: `k * (fps / n)`. */
  function BinFrequency(k: nat, n: nat, fps: real): real
    requires n > 0
  {
    (k as real) * (fps / (n as real))
  }

  predicate InBand(f: real, lowCut: real, highCut: real)
  {
    !(f < lowCut || f > highCut)
  }

  /** Zero every bin whose frequency lies outside `[lowCut, highCut]`. */
  function BandMask(spectrum: seq<real>, fps: real, lowCut: real, highCut: real): (r: seq<real>)
    ensures |r| == |spectrum|
    ensures forall k :: 0 <= k < |r| ==>
      if InBand(BinFrequency(k, |r|, fps), lowCut, highCut) then r[k] == spectrum[k] else r[k] == 0.0
  {
    seq(|spectrum|, k requires 0 <= k < |spectrum| =>
      if InBand(BinFrequency(k, |spectrum|, fps), lowCut, highCut) then spectrum[k] else 0.0)
  }

  /** Masking twice with two bands is masking once with their intersection. */
  lemma BandMaskCompose(spectrum: seq<real>, fps: real, l1: real, h1: real, l2: real, h2: real)
    ensures BandMask(BandMask(spectrum, fps, l1, h1), fps, l2, h2)
         == BandMask(spectrum, fps, if l1 < l2 then l2 else l1, if h1 < h2 then h1 else h2)
  {
  }

  /** Filtering an already filtered spectrum changes nothing. */
  lemma BandMaskIdempotent(spectrum: seq<real>, fps: real, lowCut: real, highCut: real)
    ensures BandMask(BandMask(spectrum, fps, lowCut, highCut), fps, lowCut, highCut)
         == BandMask(spectrum, fps, lowCut, highCut)
  {
    BandMaskCompose(spectrum, fps, lowCut, highCut, lowCut, highCut);
  }

  /** A transform whose forward direction yields one bin per sample. */
  ghost predicate OneBinPerSample(t: Transform)
  {
    forall x :: |t.forward(x)| == |x|
  }

  /** Forward transform, pulse-band mask, inverse transform. */
  function BandpassFilter(x: seq<real>, t: Transform): seq<real>
    requires OneBinPerSample(t)
  {
    t.inverse(BandMask(t.forward(x), Fps, LowCutHz, HighCutHz))
  }

  /** Two signals whose spectra agree on every pulse-band bin filter to the
      same output: the filter discards everything outside the band. */
  lemma BandpassFilterOutOfBand(x: seq<real>, y: seq<real>, t: Transform)
    requires OneBinPerSample(t)
    requires |x| == |y|
    requires forall k :: 0 <= k < |x| && InBand(BinFrequency(k, |x|, Fps), LowCutHz, HighCutHz) ==>
      t.forward(x)[k] == t.forward(y)[k]
    ensures BandpassFilter(x, t) == BandpassFilter(y, t)
  {
    var mx := BandMask(t.forward(x), Fps, LowCutHz, HighCutHz);
    var my := BandMask(t.forward(y), Fps, LowCutHz, HighCutHz);
    assert |t.forward(x)| == |x| && |t.forward(y)| == |y|;
    forall k | 0 <= k < |mx|
      ensures mx[k] == my[k]
    {
    }
    assert mx == my;
  }

  /** A signal whose spectrum is already confined to the pulse band passes
      the mask untouched: the filter is the round trip of the transform. */
  lemma BandpassFilterPassesBand(x: seq<real>, t: Transform)
    requires OneBinPerSample(t)
    requires forall k :: 0 <= k < |x| && !InBand(BinFrequency(k, |x|, Fps), LowCutHz, HighCutHz) ==>
      t.forward(x)[k] == 0.0
    ensures BandpassFilter(x, t) == t.inverse(t.forward(x))
  {
    var f := t.forward(x);
    var m := BandMask(f, Fps, LowCutHz, HighCutHz);
    assert |f| == |x|;
    forall k | 0 <= k < |m|
      ensures m[k] == f[k]
    {
    }
    assert m == f;
  }

  /** The filter applied to each of the three channels. */
  function ApplyBandpassFilter(n: Channels, t: Transform): Channels
    requires OneBinPerSample(t)
  {
    Channels(BandpassFilter(n.r, t), BandpassFilter(n.g, t), BandpassFilter(n.b, t))
  }

  /** Channel by channel, only the pulse-band bins reach the filtered output. */
  lemma ApplyBandpassFilterOutOfBand(n: Channels, m: Channels, t: Transform)
    requires OneBinPerSample(t)
    requires |n.r| == |m.r| && |n.g| == |m.g| && |n.b| == |m.b|
    requires forall k :: 0 <= k < |n.r| && InBand(BinFrequency(k, |n.r|, Fps), LowCutHz, HighCutHz) ==>
      t.forward(n.r)[k] == t.forward(m.r)[k]
    requires forall k :: 0 <= k < |n.g| && InBand(BinFrequency(k, |n.g|, Fps), LowCutHz, HighCutHz) ==>
      t.forward(n.g)[k] == t.forward(m.g)[k]
    requires forall k :: 0 <= k < |n.b| && InBand(BinFrequency(k, |n.b|, Fps), LowCutHz, HighCutHz) ==>
      t.forward(n.b)[k] == t.forward(m.b)[k]
    ensures ApplyBandpassFilter(n, t) == ApplyBandpassFilter(m, t)
  {
    BandpassFilterOutOfBand(n.r, m.r, t);
    BandpassFilterOutOfBand(n.g, m.g, t);
    BandpassFilterOutOfBand(n.b, m.b, t);
  }

  /** Channel by channel, a signal confined to the pulse band comes out as
      the transform's round trip of that same channel. */
  lemma ApplyBandpassFilterPassesBand(n: Channels, t: Transform)
    requires OneBinPerSample(t)
    requires forall k :: 0 <= k < |n.r| && !InBand(BinFrequency(k, |n.r|, Fps), LowCutHz, HighCutHz) ==>
      t.forward(n.r)[k] == 0.0
    requires forall k :: 0 <= k < |n.g| && !InBand(BinFrequency(k, |n.g|, Fps), LowCutHz, HighCutHz) ==>
      t.forward(n.g)[k] == 0.0
    requires forall k :: 0 <= k < |n.b| && !InBand(BinFrequency(k, |n.b|, Fps), LowCutHz, HighCutHz) ==>
      t.forward(n.b)[k] == 0.0
    ensures ApplyBandpassFilter(n, t)
         == Channels(t.inverse(t.forward(n.r)), t.inverse(t.forward(n.g)), t.inverse(t.forward(n.b)))
  {
    BandpassFilterPassesBand(n.r, t);
    BandpassFilterPassesBand(n.g, t);
    BandpassFilterPassesBand(n.b, t);
  }

  // -------------------------------------------------------- processing cycle

  /** No signals until the buffer is ready; then normalised and filtered views
      of the buffer, each `|buf| - WindowSize` samples long. */
  function Preprocess(buf: seq<Sample>, t: Transform): (r: Option<Signals>)
    requires IsReady(buf) ==> Normalizable(buf)
    requires OneBinPerSample(t)
    ensures r.None? <==> |buf| < MinSamples
    ensures r.Some? ==> r.value.raw == buf
    ensures r.Some? ==> r.value.normalized == Normalize(buf)
    ensures r.Some? ==> r.value.filtered == ApplyBandpassFilter(r.value.normalized, t)
    ensures r.Some? ==>
      var n := r.value.normalized;
      |n.r| == |n.g| == |n.b| == |buf| - WindowSize >= MinSamples - WindowSize
  {
    if !IsReady(buf) then None
    else
      var normalized := Normalize(buf);
      Some(Signals(buf, normalized, ApplyBandpassFilter(normalized, t)))
  }

  /** One camera sample: buffer it, then run the gated preprocessing. */
  function ExtractSignals(p: Processor, sample: Sample, t: Transform): (r: (Processor, Option<Signals>))
    requires IsReady(Push(p.frameBuffer, sample)) ==> Normalizable(Push(p.frameBuffer, sample))
    requires OneBinPerSample(t)
    ensures |p.frameBuffer| <= BufferSize ==> |r.0.frameBuffer| <= BufferSize
    ensures |r.0.frameBuffer| > 0 && r.0.frameBuffer[|r.0.frameBuffer| - 1] == sample
    ensures r.1.Some? <==> |p.frameBuffer| + 1 >= MinSamples
    ensures r.0.frameBuffer == Push(p.frameBuffer, sample)
    ensures r.1 == Preprocess(r.0.frameBuffer, t)
    ensures r.1.Some? ==> r.1.value.raw == r.0.frameBuffer
  {
    var buf := Push(p.frameBuffer, sample);
    (Processor(buf), Preprocess(buf, t))
  }
}

=== FILE: stats.dfy ===
/** Arithmetic shared by the rPPG processor and the vitals analyzer:
    sums and means over real-valued signals, the signal maximum, the
    30-sample sliding mean both stages use, and the `Math.min`/`Math.max`
    clamp that bounds every reported vital sign. */
module Stats {

  /** Number of preceding samples in every sliding mean. */
  const WindowSize: nat := 30

  /** Sum of a signal, accumulated from the front as `reduce((a, b) => a + b, 0)` does. */
  function Sum(xs: seq<real>): real
    decreases |xs|
  {
    if |xs| == 0 then 0.0 else Sum(xs[..|xs| - 1]) + xs[|xs| - 1]
  }

  /** Arithmetic mean; the source divides by the length without a guard. */
  function Mean(xs: seq<real>): real
    requires |xs| > 0
  {
    Sum(xs) / (|xs| as real)
  }

  /** Integer samples viewed as reals. */
  function Reals(xs: seq<int>): (r: seq<real>)
    ensures |r| == |xs|
    ensures forall k :: 0 <= k < |xs| ==> r[k] == xs[k] as real
  {
    seq(|xs|, k requires 0 <= k < |xs| => xs[k] as real)
  }

  /** `Math.max(...xs)` for a non-empty signal. */
  function Max(xs: seq<real>): (m: real)
    requires |xs| > 0
    ensures forall k :: 0 <= k < |xs| ==> xs[k] <= m
    ensures exists k :: 0 <= k < |xs| && xs[k] == m
    decreases |xs|
  {
    if |xs| == 1 then xs[0]
    else
      var m' := Max(xs[..|xs| - 1]);
      assert forall k :: 0 <= k < |xs| - 1 ==> xs[..|xs| - 1][k] == xs[k];
      if xs[|xs| - 1] > m' then xs[|xs| - 1] else m'
  }

  /** `Math.min(...xs)` for a non-empty signal. */
  function Min(xs: seq<real>): (m: real)
    requires |xs| > 0
    ensures forall k :: 0 <= k < |xs| ==> m <= xs[k]
    ensures exists k :: 0 <= k < |xs| && xs[k] == m
    decreases |xs|
  {
    if |xs| == 1 then xs[0]
    else
      var m' := Min(xs[..|xs| - 1]);
      assert forall k :: 0 <= k < |xs| - 1 ==> xs[..|xs| - 1][k] == xs[k];
      if xs[|xs| - 1] < m' then xs[|xs| - 1] else m'
  }

  /** `Math.pow(x, n)` for a natural exponent. */
  function Pow(x: real, n: nat): real
    decreases n
  {
    if n == 0 then 1.0 else x * Pow(x, n - 1)
  }

  /** A square is non-negative and zero exactly at zero. */
  lemma SquareSign(d: real)
    ensures Pow(d, 2) >= 0.0
    ensures d != 0.0 ==> Pow(d, 2) > 0.0
    ensures d == 0.0 ==> Pow(d, 2) == 0.0
  {
    assert Pow(d, 0) == 1.0;
    var e := Pow(d, 1);
    assert e == d;
    if d > 0.0 {
      ProductPositive(d, e);
    } else if d < 0.0 {
      ProductPositive(-d, -e);
    }
  }

  lemma ProductPositive(a: real, b: real)
    requires a > 0.0 && b > 0.0
    ensures a * b > 0.0
  {
  }

  /** Mean of the `WindowSize` samples strictly before index `i`. */
  function WindowMean(xs: seq<real>, i: int): real
    requires WindowSize <= i <= |xs|
  {
    Sum(xs[i - WindowSize..i]) / (WindowSize as real)
  }

  /** The most recent `min(n, |s|)` elements of `s`, in order: what a
      bounded history keeps after `shift()` or `slice(-n)`. */
  function KeepNewest<T>(s: seq<T>, n: nat): (r: seq<T>)
    ensures |r| == if |s| <= n then |s| else n
    ensures r == s[|s| - |r|..]
  {
    if |s| <= n then s else s[|s| - n..]
  }

  /** `Math.min(hi, Math.max(lo, v))`. */
  function Clamp(v: real, lo: real, hi: real): (r: real)
    requires lo <= hi
    ensures lo <= r <= hi
    ensures lo <= v <= hi ==> r == v
    ensures v < lo ==> r == lo
    ensures v > hi ==> r == hi
  {
    var raised := if v > lo then v else lo;
    if raised < hi then raised else hi
  }

  /** A constant signal sums to its length times the constant. */
  lemma {:induction false} SumConstant(xs: seq<real>, c: real)
    requires forall k :: 0 <= k < |xs| ==> xs[k] == c
    ensures Sum(xs) == (|xs| as real) * c
    decreases |xs|
  {
    if |xs| > 0 {
      SumConstant(xs[..|xs| - 1], c);
    }
  }

  /** A signal of zeros sums to zero. */
  lemma {:induction false} SumZero(xs: seq<real>)
    requires forall k :: 0 <= k < |xs| ==> xs[k] == 0.0
    ensures Sum(xs) == 0.0
    decreases |xs|
  {
    if |xs| > 0 {
      SumZero(xs[..|xs| - 1]);
    }
  }

  /** Sums respect pointwise bounds. */
  lemma {:induction false} SumBounds(xs: seq<real>, lo: real, hi: real)
    requires forall k :: 0 <= k < |xs| ==> lo <= xs[k] <= hi
    ensures (|xs| as real) * lo <= Sum(xs) <= (|xs| as real) * hi
    decreases |xs|
  {
    if |xs| > 0 {
      var n := (|xs| - 1) as real;
      SumBounds(xs[..|xs| - 1], lo, hi);
      assert (|xs| as real) * lo == n * lo + lo;
      assert (|xs| as real) * hi == n * hi + hi;
    }
  }

  /** Scaling every sample scales the sum. */
  lemma {:induction false} SumScale(xs: seq<real>, ys: seq<real>, c: real)
    requires |xs| == |ys|
    requires forall k :: 0 <= k < |xs| ==> ys[k] == c * xs[k]
    ensures Sum(ys) == c * Sum(xs)
    decreases |xs|
  {
    if |xs| > 0 {
      SumScale(xs[..|xs| - 1], ys[..|ys| - 1], c);
    }
  }

  /** A sum of non-negative terms is non-negative, and zero only when
      every term is zero. */
  lemma {:induction false} SumNonNegative(xs: seq<real>)
    requires forall k :: 0 <= k < |xs| ==> xs[k] >= 0.0
    ensures Sum(xs) >= 0.0
    ensures Sum(xs) == 0.0 ==> forall k :: 0 <= k < |xs| ==> xs[k] == 0.0
    decreases |xs|
  {
    if |xs| > 0 {
      var init := xs[..|xs| - 1];
      SumNonNegative(init);
      if Sum(xs) == 0.0 {
        assert Sum(init) == 0.0 && xs[|xs| - 1] == 0.0;
        forall k | 0 <= k < |xs|
          ensures xs[k] == 0.0
        {
          if k < |xs| - 1 {
            assert xs[k] == init[k];
          }
        }
      }
    }
  }

  /** The sliding mean of a window whose samples lie in `[lo, hi]` lies there too. */
  lemma WindowMeanBounds(xs: seq<real>, i: int, lo: real, hi: real)
    requires WindowSize <= i <= |xs|
    requires forall k :: i - WindowSize <= k < i ==> lo <= xs[k] <= hi
    ensures lo <= WindowMean(xs, i) <= hi
  {
    var w := xs[i - WindowSize..i];
    assert forall k :: 0 <= k < |w| ==> w[k] == xs[i - WindowSize + k];
    SumBounds(w, lo, hi);
  }

  /** The sliding mean of a constant window is that constant. */
  lemma WindowMeanConstant(xs: seq<real>, i: int, c: real)
    requires WindowSize <= i <= |xs|
    requires forall k :: i - WindowSize <= k < i ==> xs[k] == c
    ensures WindowMean(xs, i) == c
  {
    var w := xs[i - WindowSize..i];
    assert forall k :: 0 <= k < |w| ==> w[k] == xs[i - WindowSize + k];
    SumConstant(w, c);
  }

  /** The sliding mean is linear in the signal. */
  lemma WindowMeanScale(xs: seq<real>, ys: seq<real>, i: int, c: real)
    requires |xs| == |ys| && WindowSize <= i <= |xs|
    requires forall k :: 0 <= k < |xs| ==> ys[k] == c * xs[k]
    ensures WindowMean(ys, i) == c * WindowMean(xs, i)
  {
    SumScale(xs[i - WindowSize..i], ys[i - WindowSize..i], c);
  }
}

=== FILE: vitals.dfy ===
/** The estimation half of the pipeline (`VitalsAnalyzer`): an immutable
    analyzer state advanced once per processed frame.  Heart rate comes from
    the detected pulse peaks and feeds a bounded RR-interval history; SpO2,
    blood pressure and glucose are clamped estimates gated by a 90-frame
    calibration phase.  The random draws and the respiration rate (whose
    spectral search is not modelled) enter each step as opaque real inputs. */
module VitalsAnalyzer {
  import opened Stats
  import opened Wrappers
  import opened Peaks
  import Rppg
  import opened JsNumber

  /** Capacity of the RR-interval history. */
  const MaxIntervals: nat := 300
  /** Processed frames before the calibration phase ends (3 s). */
  const CalibrationFrames: nat := 90

  /** The vitals record.  SDNN and RMSSD are kept squared: the square root
      the source applies last is not modelled. */
  datatype Vitals = Vitals(
    heartRate: real,
    respirationRate: real,
    spo2: real,
    systolic: real,
    diastolic: real,
    hrvSquared: real,
    sdnnSquared: real,
    glucose: real)

  datatype Analyzer = Analyzer(
    vitals: Vitals,
    rrIntervals: seq<int>,
    calibrationPhase: bool,
    calibrationCounter: nat)

  /** Values the model takes from outside for one cycle: the respiration rate
      of the spectral search and the two `Math.random()` draws of the
      pressure and glucose estimators. */
  datatype CycleInputs = CycleInputs(
    respirationRate: real,
    pttDraw: real,
    glucoseDraw: real)

  const DefaultVitals: Vitals := Vitals(0.0, 0.0, 98.0, 120.0, 80.0, 0.0, 0.0, 100.0)

  /** The freshly constructed analyzer. */
  function Initial(): (a: Analyzer)
    ensures Valid(a) && a.calibrationPhase
    ensures a.rrIntervals == [] && a.calibrationCounter == 0
    ensures a.vitals.heartRate == 0.0 && a.vitals.respirationRate == 0.0
    ensures a.vitals.hrvSquared == 0.0 && a.vitals.sdnnSquared == 0.0
    ensures a.vitals.spo2 == 98.0 && a.vitals.systolic == 120.0
    ensures a.vitals.diastolic == 80.0 && a.vitals.glucose == 100.0
  {
    Analyzer(DefaultVitals, [], true, 0)
  }

  // ------------------------------------------------------------ heart rate

  /** Differences of consecutive peak indices. */
  function Intervals(peaks: seq<int>): (d: seq<int>)
    ensures |d| == if |peaks| < 2 then 0 else |peaks| - 1
    ensures forall k :: 0 <= k < |d| ==> d[k] == peaks[k + 1] - peaks[k]
  {
    if |peaks| < 2 then []
    else seq(|peaks| - 1, k requires 0 <= k < |peaks| - 1 => peaks[k + 1] - peaks[k])
  }

  /** The intervals telescope: together they span first peak to last. */
  lemma {:induction false} IntervalsSum(peaks: seq<int>)
    requires |peaks| >= 1
    ensures Sum(Reals(Intervals(peaks))) == Span(peaks) as real
    decreases |peaks|
  {
    if |peaks| >= 2 {
      var init := peaks[..|peaks| - 1];
      IntervalsSum(init);
      var ys := Reals(Intervals(peaks));
      var zs := Reals(Intervals(init));
      assert forall k :: 0 <= k < |zs| ==> ys[k] == zs[k];
      assert ys[..|ys| - 1] == zs;
      assert ys[|ys| - 1] == (peaks[|peaks| - 1] - init[|init| - 1]) as real;
    }
  }

  /** Distance from the first peak to the last. */
  function Span(peaks: seq<int>): int
    requires |peaks| >= 1
  {
    peaks[|peaks| - 1] - peaks[0]
  }

  /** Spaced peaks span at least `MinPeakDistance` per interval. */
  lemma {:induction false} SpacedSpan(peaks: seq<int>)
    requires |peaks| >= 1 && Spaced(peaks)
    ensures peaks[|peaks| - 1] - peaks[0] >= MinPeakDistance * (|peaks| - 1)
    decreases |peaks|
  {
    if |peaks| >= 2 {
      SpacedSpan(peaks[..|peaks| - 1]);
    }
  }

  /** `60000 / mean(intervals)`.  Intervals are index differences, so the
      result reads as a rate per minute only when one sample is one
      millisecond; the source makes no conversion. */
  function HeartRateFromPeaks(peaks: seq<int>): (hr: real)
    requires |peaks| >= 2 && Spaced(peaks)
    ensures hr * (Span(peaks) as real) == 60000.0 * ((|peaks| - 1) as real)
    ensures 0.0 < hr <= 3000.0
  {
    var span, n, m := Span(peaks) as real, (|peaks| - 1) as real, Mean(Reals(Intervals(peaks)));
    MeanIsSpanOverCount(peaks);
    SpacedSpanReal(peaks);
    RateFromMean(span, n, m);
    60000.0 / m
  }

  lemma MeanIsSpanOverCount(peaks: seq<int>)
    requires |peaks| >= 2
    ensures Mean(Reals(Intervals(peaks))) == (Span(peaks) as real) / ((|peaks| - 1) as real)
  {
    IntervalsSum(peaks);
  }

  lemma SpacedSpanReal(peaks: seq<int>)
    requires |peaks| >= 2 && Spaced(peaks)
    ensures (Span(peaks) as real) >= 20.0 * ((|peaks| - 1) as real)
  {
    SpacedSpan(peaks);
  }

  /** The arithmetic behind the heart-rate bounds. */
  lemma RateFromMean(span: real, n: real, q: real)
    requires n >= 1.0 && span >= 20.0 * n && q == span / n
    ensures q >= 20.0
    ensures (60000.0 / q) * span == 60000.0 * n
    ensures 0.0 < 60000.0 / q <= 3000.0
  {
    assert q * n == span;
    assert q >= 20.0;
    var hr := 60000.0 / q;
    assert hr * q == 60000.0;
    assert hr * span == hr * q * n;
    assert hr * 20.0 <= hr * q;
  }

  /** Peaks at indices 30, 60 and 90 give 2000, not 60: the source divides
      60000 by a sample count, not by milliseconds. */
  lemma HeartRateOfIndexIntervals()
    ensures HeartRateFromPeaks([30, 60, 90]) == 2000.0
  {
    var p := [30, 60, 90];
    assert HeartRateFromPeaks(p) * 60.0 == 120000.0;
  }

  // ------------------------------------------------------------------ HRV

  /** Squared deviations of every entry from `c`. */
  function SquaredDeviations(xs: seq<real>, c: real): (d: seq<real>)
    ensures |d| == |xs|
    ensures forall k :: 0 <= k < |xs| ==> d[k] == Pow(xs[k] - c, 2)
  {
    seq(|xs|, k requires 0 <= k < |xs| => Pow(xs[k] - c, 2))
  }

  /** Squared differences of consecutive entries. */
  function SuccessiveSquares(xs: seq<real>): (d: seq<real>)
    ensures |d| == if |xs| < 2 then 0 else |xs| - 1
    ensures forall k :: 0 <= k < |d| ==> d[k] == Pow(xs[k + 1] - xs[k], 2)
  {
    if |xs| < 2 then []
    else seq(|xs| - 1, k requires 0 <= k < |xs| - 1 => Pow(xs[k + 1] - xs[k], 2))
  }

  /** SDNN squared: the population variance of the history.  It is
      non-negative and vanishes exactly on a constant history. */
  function Variance(xs: seq<real>): (v: real)
    requires |xs| > 0
    ensures v >= 0.0
    ensures v == 0.0 <==> Constant(xs)
  {
    var d := SquaredDeviations(xs, Mean(xs));
    DeviationsZeroIffConstant(xs);
    QuotientSign(Sum(d), |d| as real);
    Mean(d)
  }

  /** RMSSD squared: the summed squared successive differences over `n - 1`.
      It is non-negative and vanishes exactly on a constant history. */
  function MeanSquaredSuccessive(xs: seq<real>): (v: real)
    requires |xs| >= 2
    ensures v >= 0.0
    ensures v == 0.0 <==> Constant(xs)
  {
    var d := SuccessiveSquares(xs);
    SuccessiveSumZeroIffConstant(xs);
    QuotientSign(Sum(d), (|xs| - 1) as real);
    Sum(d) / ((|xs| - 1) as real)
  }

  /** A quotient times its nonzero divisor gives back the dividend. */
  lemma QuotientTimesDivisor(q: real, s: real, n: int)
    requires n >= 1 && q == s / (n as real)
    ensures q * (n as real) == s
  {
  }

  /** SDNN squared divides the summed squared deviations by the history
      length `n`. */
  lemma VarianceDivisor(xs: seq<real>)
    requires |xs| > 0
    ensures Variance(xs) * (|xs| as real) == Sum(SquaredDeviations(xs, Mean(xs)))
  {
    var d := SquaredDeviations(xs, Mean(xs));
    var sum := Sum(d);
    assert Variance(xs) == sum / (|xs| as real);
    QuotientTimesDivisor(Variance(xs), sum, |xs|);
  }

  /** The history 0, 2, 2 has successive squares 4 and 0: RMSSD squared is
      4 / 2 = 2, the divisor being `n - 1` and not `n`. */
  lemma SuccessiveDivisorExample()
    ensures MeanSquaredSuccessive([0.0, 2.0, 2.0]) == 2.0
  {
    var xs := [0.0, 2.0, 2.0];
    var d := SuccessiveSquares(xs);
    assert Pow(2.0, 2) == 4.0 && Pow(0.0, 2) == 0.0;
    assert d == [4.0, 0.0];
    assert Sum(d) == Sum([4.0]) + 0.0;
    assert Sum([4.0]) == Sum([]) + 4.0;
  }

  predicate Constant(xs: seq<real>)
  {
    forall k :: 0 <= k < |xs| ==> xs[k] == xs[0]
  }

  /** The squared deviations from the mean sum to a non-negative total that
      vanishes exactly on a constant history. */
  lemma DeviationsZeroIffConstant(xs: seq<real>)
    requires |xs| > 0
    ensures Sum(SquaredDeviations(xs, Mean(xs))) >= 0.0
    ensures Sum(SquaredDeviations(xs, Mean(xs))) == 0.0 <==> Constant(xs)
  {
    var m := Mean(xs);
    var d := SquaredDeviations(xs, m);
    forall k | 0 <= k < |xs| ensures d[k] >= 0.0 && (d[k] == 0.0 <==> xs[k] == m) {
      SquareSign(xs[k] - m);
    }
    SumNonNegative(d);
    if Constant(xs) {
      SumConstant(xs, xs[0]);
      assert m == xs[0];
      SumConstant(d, 0.0);
    }
    if Sum(d) == 0.0 {
      assert forall k :: 0 <= k < |xs| ==> xs[k] == m;
    }
  }

  /** Consecutive equality spreads along the whole sequence. */
  lemma {:induction false} SuccessiveEqualConstant(xs: seq<real>)
    requires forall k :: 0 < k < |xs| ==> xs[k] == xs[k - 1]
    ensures Constant(xs)
    decreases |xs|
  {
    if |xs| > 1 {
      var init := xs[..|xs| - 1];
      SuccessiveEqualConstant(init);
      assert forall k :: 0 <= k < |init| ==> init[k] == xs[k];
      assert xs[|xs| - 1] == xs[|xs| - 2] == init[|init| - 1] == init[0] == xs[0];
    }
  }

  /** The squared successive differences sum to a non-negative total that
      vanishes exactly on a constant history. */
  lemma SuccessiveSumZeroIffConstant(xs: seq<real>)
    requires |xs| >= 2
    ensures Sum(SuccessiveSquares(xs)) >= 0.0
    ensures Sum(SuccessiveSquares(xs)) == 0.0 <==> Constant(xs)
  {
    var d := SuccessiveSquares(xs);
    SuccessiveSquaresSign(xs);
    SumNonNegative(d);
    if Constant(xs) {
      ConstantSuccessiveZero(xs);
    }
    if Sum(d) == 0.0 {
      SuccessiveZeroEqual(xs);
    }
  }

  lemma ConstantSuccessiveZero(xs: seq<real>)
    requires Constant(xs)
    ensures Sum(SuccessiveSquares(xs)) == 0.0
  {
    var d := SuccessiveSquares(xs);
    ConstantSuccessiveSquares(xs);
    SumZero(d);
  }

  lemma ConstantSuccessiveSquares(xs: seq<real>)
    requires Constant(xs)
    ensures forall k :: 0 <= k < |SuccessiveSquares(xs)| ==> SuccessiveSquares(xs)[k] == 0.0
  {
    var d := SuccessiveSquares(xs);
    forall k | 0 <= k < |d| ensures d[k] == 0.0 {
      var e := xs[k + 1] - xs[k];
      assert e == 0.0;
      SquareSign(e);
    }
  }

  lemma SuccessiveSquaresSign(xs: seq<real>)
    ensures forall k :: 0 <= k < |SuccessiveSquares(xs)| ==>
      SuccessiveSquares(xs)[k] >= 0.0 && (SuccessiveSquares(xs)[k] == 0.0 <==> xs[k + 1] == xs[k])
  {
    var d := SuccessiveSquares(xs);
    forall k | 0 <= k < |d| ensures d[k] >= 0.0 && (d[k] == 0.0 <==> xs[k + 1] == xs[k]) {
      SquareSign(xs[k + 1] - xs[k]);
    }
  }

  lemma QuotientSign(s: real, n: real)
    requires n > 0.0
    ensures s >= 0.0 ==> s / n >= 0.0
    ensures s / n == 0.0 <==> s == 0.0
  {
  }

  lemma SuccessiveZeroEqual(xs: seq<real>)
    requires |xs| >= 2
    requires forall k :: 0 <= k < |xs| - 1 ==> (SuccessiveSquares(xs)[k] == 0.0 <==> xs[k + 1] == xs[k])
    requires Sum(SuccessiveSquares(xs)) == 0.0
    requires forall k :: 0 <= k < |xs| - 1 ==> SuccessiveSquares(xs)[k] >= 0.0
    ensures Constant(xs)
  {
    var d := SuccessiveSquares(xs);
    SumNonNegative(d);
    forall k | 0 < k < |xs| ensures xs[k] == xs[k - 1] {
      assert d[k - 1] == 0.0;
    }
    SuccessiveEqualConstant(xs);
  }

  /** `updateHRVMetrics`: nothing changes with fewer than two intervals;
      otherwise only the two variability statistics are recomputed. */
  function UpdateHRVMetrics(v: Vitals, rr: seq<int>): (r: Vitals)
    ensures |rr| < 2 ==> r == v
    ensures r.(hrvSquared := v.hrvSquared, sdnnSquared := v.sdnnSquared) == v
    ensures |rr| >= 2 ==> r.sdnnSquared >= 0.0 && r.hrvSquared >= 0.0
    ensures |rr| >= 2 ==> (r.sdnnSquared == 0.0 <==> Constant(Reals(rr)))
    ensures |rr| >= 2 ==> (r.hrvSquared == 0.0 <==> Constant(Reals(rr)))
    ensures |rr| >= 2 ==> r.sdnnSquared == Variance(Reals(rr)) && r.hrvSquared == MeanSquaredSuccessive(Reals(rr))
  {
    if |rr| < 2 then v
    else
      var xs := Reals(rr);
      v.(sdnnSquared := Variance(xs), hrvSquared := MeanSquaredSuccessive(xs))
  }

  /** Every interval of the history is at least the refractory gap. */
  predicate IntervalsSpaced(rr: seq<int>)
  {
    forall k :: 0 <= k < |rr| ==> rr[k] >= MinPeakDistance
  }

  /** The RR history after `concat(intervals)` and `slice(-MaxIntervals)`:
      the newest `MaxIntervals` entries of the old history and the new
      intervals taken together, or all of them when they fit. */
  function RecordIntervals(history: seq<int>, intervals: seq<int>): (rr: seq<int>)
    ensures |rr| == if |history| + |intervals| <= MaxIntervals then |history| + |intervals| else MaxIntervals
    ensures rr == (history + intervals)[|history| + |intervals| - |rr|..]
    ensures IntervalsSpaced(history) && IntervalsSpaced(intervals) ==> IntervalsSpaced(rr)
  {
    var all := history + intervals;
    var rr := KeepNewest(all, MaxIntervals);
    assert forall k :: 0 <= k < |rr| ==> rr[k] == all[|all| - |rr| + k];
    rr
  }

  /** Spaced peaks are at least the refractory gap apart. */
  lemma SpacedPeaksIntervals(peaks: seq<int>)
    requires Spaced(peaks)
    ensures IntervalsSpaced(Intervals(peaks))
  {
  }

  /** `updateHeartRate`: with two or more peaks, their intervals join the
      history, which keeps its newest `MaxIntervals`, and the heart rate is
      recomputed from this cycle's intervals alone; with fewer, nothing
      changes. */
  function UpdateHeartRate(a: Analyzer, signal: seq<real>): (r: Analyzer)
    ensures |DetectPeaks(signal)| < 2 ==> r == a
    ensures |DetectPeaks(signal)| >= 2 ==>
      && r.rrIntervals == RecordIntervals(a.rrIntervals, Intervals(DetectPeaks(signal)))
      && IntervalsSpaced(Intervals(DetectPeaks(signal)))
      && r.vitals.heartRate == HeartRateFromPeaks(DetectPeaks(signal))
      && r.vitals == UpdateHRVMetrics(a.vitals.(heartRate := HeartRateFromPeaks(DetectPeaks(signal))), r.rrIntervals)
    ensures r.calibrationPhase == a.calibrationPhase && r.calibrationCounter == a.calibrationCounter
    ensures r.vitals.(heartRate := a.vitals.heartRate, hrvSquared := a.vitals.hrvSquared,
                      sdnnSquared := a.vitals.sdnnSquared) == a.vitals
  {
    var peaks := DetectPeaks(signal);
    if |peaks| < 2 then a
    else
      SpacedPeaksIntervals(peaks);
      var rr := RecordIntervals(a.rrIntervals, Intervals(peaks));
      var v := a.vitals.(heartRate := HeartRateFromPeaks(peaks));
      a.(vitals := UpdateHRVMetrics(v, rr), rrIntervals := rr)
  }

  /** The heart rate the step reports is either the old one or within the
      bounds the refractory gap allows, and the variability statistics stay
      non-negative. */
  lemma UpdateHeartRateBounds(a: Analyzer, signal: seq<real>)
    ensures var r := UpdateHeartRate(a, signal);
      r.vitals.heartRate == a.vitals.heartRate || 0.0 < r.vitals.heartRate <= 3000.0
    ensures a.vitals.hrvSquared >= 0.0 ==> UpdateHeartRate(a, signal).vitals.hrvSquared >= 0.0
    ensures a.vitals.sdnnSquared >= 0.0 ==> UpdateHeartRate(a, signal).vitals.sdnnSquared >= 0.0
  {
  }

  /** The heart-rate step keeps the RR history bounded and every entry of
      it at least the refractory gap. */
  lemma UpdateHeartRateHistory(a: Analyzer, signal: seq<real>)
    requires |a.rrIntervals| <= MaxIntervals && IntervalsSpaced(a.rrIntervals)
    ensures |UpdateHeartRate(a, signal).rrIntervals| <= MaxIntervals
    ensures IntervalsSpaced(UpdateHeartRate(a, signal).rrIntervals)
  {
  }

  /** A flat signal never moves the heart rate or the history. */
  lemma FlatSignalKeepsHeartRate(a: Analyzer, signal: seq<real>, c: real)
    requires forall k :: 0 <= k < |signal| ==> signal[k] == c
    ensures UpdateHeartRate(a, signal) == a
  {
    FlatSignalHasNoPeaks(signal, c);
  }

  // ---------------------------------------------------------- respiration

  /** `extractRespirationSignal`: the 30-sample moving average of the
      filtered pulse signal, one entry per sample past the first window. */
  function ExtractRespirationSignal(signal: seq<real>): (env: seq<real>)
    ensures |env| == if |signal| > WindowSize then |signal| - WindowSize else 0
  {
    if |signal| <= WindowSize then []
    else seq(|signal| - WindowSize, j requires 0 <= j < |signal| - WindowSize => WindowMean(signal, j + WindowSize))
  }

  /** The envelope never leaves the range of the signal. */
  lemma RespirationSignalBounds(signal: seq<real>, lo: real, hi: real)
    requires forall k :: 0 <= k < |signal| ==> lo <= signal[k] <= hi
    ensures forall j :: 0 <= j < |ExtractRespirationSignal(signal)| ==>
      lo <= ExtractRespirationSignal(signal)[j] <= hi
  {
    forall j | 0 <= j < |ExtractRespirationSignal(signal)|
      ensures lo <= ExtractRespirationSignal(signal)[j] <= hi
    {
      WindowMeanBounds(signal, j + WindowSize, lo, hi);
    }
  }

  /** A constant signal has itself as envelope. */
  lemma RespirationSignalConstant(signal: seq<real>, c: real)
    requires forall k :: 0 <= k < |signal| ==> signal[k] == c
    ensures forall j :: 0 <= j < |ExtractRespirationSignal(signal)| ==> ExtractRespirationSignal(signal)[j] == c
  {
    RespirationSignalBounds(signal, c, c);
  }

  // ------------------------------------------------- SpO2, pressure, glucose

  /** `calculateACDCRatio`: peak-to-peak swing over the mean.  The source
      divides by the mean without a guard. */
  function AcDcRatio(xs: seq<real>): (ratio: real)
    requires |xs| > 0 && Mean(xs) != 0.0
    ensures Mean(xs) > 0.0 ==> ratio >= 0.0
    ensures Mean(xs) < 0.0 ==> ratio <= 0.0
  {
    assert Max(xs) - Min(xs) >= 0.0 by {
      var k :| 0 <= k < |xs| && xs[k] == Max(xs);
    }
    (Max(xs) - Min(xs)) / Mean(xs)
  }

  /** The ratio is zero exactly when the channel is flat, whatever the sign
      of its mean. */
  lemma AcDcRatioZeroIffFlat(xs: seq<real>)
    requires |xs| > 0 && Mean(xs) != 0.0
    ensures Mean(xs) > 0.0 ==> AcDcRatio(xs) >= 0.0
    ensures AcDcRatio(xs) == 0.0 <==> Constant(xs)
  {
    var a, b := Max(xs), Min(xs);
    if Constant(xs) {
      var i :| 0 <= i < |xs| && xs[i] == a;
      var j :| 0 <= j < |xs| && xs[j] == b;
    }
    if AcDcRatio(xs) == 0.0 {
      assert a - b == AcDcRatio(xs) * Mean(xs);
      assert forall k :: 0 <= k < |xs| ==> xs[k] == a;
    }
  }

  /** The red/blue ratio of ratios the SpO2 estimate reads: zero exactly
      when the red channel is flat. */
  function SpO2Ratio(n: Rppg.Channels): (ratio: real)
    requires |n.r| > 0 && Mean(n.r) != 0.0
    requires |n.b| > 0 && Mean(n.b) != 0.0 && AcDcRatio(n.b) != 0.0
    ensures ratio == 0.0 <==> Constant(n.r)
  {
    AcDcRatioZeroIffFlat(n.r);
    AcDcRatio(n.r) / AcDcRatio(n.b)
  }

  /** `110 - 25 * ratio`, clamped to [90, 100]. */
  function SpO2FromRatio(ratio: real): (spo2: real)
    ensures 90.0 <= spo2 <= 100.0
    ensures 0.4 <= ratio <= 0.8 ==> spo2 == 110.0 - 25.0 * ratio
  {
    Clamp(110.0 - 25.0 * ratio, 90.0, 100.0)
  }

  /** Channels on which none of the three divisions of `updateSpO2` and
      `calculateACDCRatio` has a zero divisor. */
  predicate SpO2Defined(n: Rppg.Channels)
  {
    && |n.r| > 0 && Mean(n.r) != 0.0
    && |n.b| > 0 && Mean(n.b) != 0.0 && AcDcRatio(n.b) != 0.0
  }

  /** `calculateACDCRatio` as written, in JavaScript number semantics: an
      empty channel spreads from minus to plus infinity over a NaN mean. */
  function AcDcRatioAsWritten(xs: seq<real>): (ratio: Num)
    ensures |xs| == 0 ==> ratio.NaN?
    ensures |xs| > 0 && Mean(xs) != 0.0 ==> ratio == Finite(AcDcRatio(xs))
  {
    if |xs| == 0 then Div(Sub(Infinite(false), Infinite(true)), Div(Finite(0.0), Finite(0.0)))
    else Div(Finite(Max(xs) - Min(xs)), Div(Finite(Sum(xs)), Finite(|xs| as real)))
  }

  /** The estimate of `updateSpO2` as written.  The clamp keeps every number
      in `[90, 100]` except NaN, which passes straight through it. */
  function SpO2AsWritten(n: Rppg.Channels): (spo2: Num)
    ensures !spo2.NaN? ==> spo2.Finite? && 90.0 <= spo2.value <= 100.0
    ensures SpO2Defined(n) ==> spo2 == Finite(SpO2FromRatio(SpO2Ratio(n)))
  {
    var ratio := Div(AcDcRatioAsWritten(n.r), AcDcRatioAsWritten(n.b));
    ClampNum(Sub(Finite(110.0), Mul(Finite(25.0), ratio)), 90.0, 100.0)
  }

  /** An all-zero red channel, which is what the normaliser makes of a flat
      colour patch, gives the AC/DC ratio 0 / 0: the estimate is NaN. */
  lemma ZeroRedChannelSpO2NaN(n: Rppg.Channels)
    requires |n.r| > 0
    requires forall k :: 0 <= k < |n.r| ==> n.r[k] == 0.0
    ensures AcDcRatioAsWritten(n.r).NaN?
    ensures SpO2AsWritten(n).NaN?
  {
    var k :| 0 <= k < |n.r| && n.r[k] == Max(n.r);
    var j :| 0 <= j < |n.r| && n.r[j] == Min(n.r);
    SumZero(n.r);
    assert Div(Finite(Sum(n.r)), Finite(|n.r| as real)) == Finite(0.0);
  }

  /** A buffer of `len` identical samples with every channel at 128, for
      any length the buffer can hold once ready: it is ready and
      normalisable, and yet the estimate as written is NaN, outside
      `[90, 100]`.  The guarded estimate keeps the previous value. */
  lemma FlatPatchSpO2(len: nat, previous: real)
    requires Rppg.MinSamples <= len <= Rppg.BufferSize
    ensures var buf := seq(len, k => Rppg.Sample(128.0, 128.0, 128.0, k));
      && Rppg.IsReady(buf) && Rppg.Normalizable(buf)
      && SpO2AsWritten(Rppg.Normalize(buf)).NaN?
      && SpO2Guarded(Rppg.Normalize(buf), previous) == previous
  {
    var buf := seq(len, k => Rppg.Sample(128.0, 128.0, 128.0, k));
    Rppg.NormalizeConstant(Rppg.Project(buf, Rppg.Red), 128.0);
    Rppg.NormalizeConstant(Rppg.Project(buf, Rppg.Green), 128.0);
    Rppg.NormalizeConstant(Rppg.Project(buf, Rppg.Blue), 128.0);
    var n := Rppg.Normalize(buf);
    ZeroRedChannelSpO2NaN(n);
  }

  /** `updateSpO2` with its divisions guarded: where any divisor is zero the
      estimate is not updated; elsewhere it is the as-written estimate.
      So it stays in `[90, 100]` on every input. */
  function SpO2Guarded(n: Rppg.Channels, previous: real): (spo2: real)
    ensures !SpO2Defined(n) ==> spo2 == previous
    ensures 90.0 <= previous <= 100.0 ==> 90.0 <= spo2 <= 100.0
  {
    if SpO2Defined(n) then SpO2FromRatio(SpO2Ratio(n)) else previous
  }

  /** Where no divisor is zero the guarded estimate is the estimate as
      written; where one is, the as-written estimate is NaN or a clamp bound
      (an infinite ratio) and the guarded one is the previous value. */
  lemma SpO2GuardedAgrees(n: Rppg.Channels, previous: real)
    ensures SpO2Defined(n) ==> SpO2AsWritten(n) == Finite(SpO2Guarded(n, previous))
    ensures !SpO2Defined(n) ==> SpO2Guarded(n, previous) == previous
  {
  }

  /** A larger channel ratio never raises the SpO2 estimate. */
  lemma SpO2Antitone(r1: real, r2: real)
    requires r1 <= r2
    ensures SpO2FromRatio(r2) <= SpO2FromRatio(r1)
  {
  }

  /** `estimatePTT`: `250 + (draw - 0.5) * 20` ms. */
  function Ptt(draw: real): (ptt: real)
    ensures 0.0 <= draw < 1.0 ==> 240.0 <= ptt < 260.0
  {
    250.0 + (draw - 0.5) * 20.0
  }

  function SystolicFromPtt(ptt: real): (s: real)
    ensures 90.0 <= s <= 180.0
  {
    Clamp(120.0 - 0.5 * (ptt - 250.0), 90.0, 180.0)
  }

  function DiastolicFromPtt(ptt: real): (d: real)
    ensures 60.0 <= d <= 120.0
  {
    Clamp(80.0 - 0.4 * (ptt - 250.0), 60.0, 120.0)
  }

  /** For a draw of `Math.random()` the pressure clamps never bind: systolic
      stays in (115, 125] and diastolic in (76, 84]. */
  lemma PressureForRandomDraw(draw: real)
    requires 0.0 <= draw < 1.0
    ensures 115.0 < SystolicFromPtt(Ptt(draw)) <= 125.0
    ensures 76.0 < DiastolicFromPtt(Ptt(draw)) <= 84.0
  {
  }

  predicate IsFasting(glucoseType: string)
  {
    glucoseType == "fasting"
  }

  /** Lower and upper glucose clamp for the meal context. */
  function GlucoseRange(glucoseType: string): (range: (real, real))
    ensures range.0 < range.1
  {
    if IsFasting(glucoseType) then (70.0, 130.0) else (110.0, 180.0)
  }

  /** Glucose estimate: base 100 fasting or 140 otherwise, plus
      `(draw - 0.5) * 20`, clamped to the context's range. */
  function GlucoseEstimate(glucoseType: string, draw: real): (g: real)
    ensures GlucoseRange(glucoseType).0 <= g <= GlucoseRange(glucoseType).1
    ensures IsFasting(glucoseType) ==> 70.0 <= g <= 130.0
    ensures !IsFasting(glucoseType) ==> 110.0 <= g <= 180.0
  {
    var base := if IsFasting(glucoseType) then 100.0 else 140.0;
    var range := GlucoseRange(glucoseType);
    Clamp(base + (draw - 0.5) * 20.0, range.0, range.1)
  }

  /** For a draw of `Math.random()` the glucose clamp never binds. */
  lemma GlucoseForRandomDraw(glucoseType: string, draw: real)
    requires 0.0 <= draw < 1.0
    ensures IsFasting(glucoseType) ==> 90.0 <= GlucoseEstimate(glucoseType, draw) < 110.0
    ensures !IsFasting(glucoseType) ==> 130.0 <= GlucoseEstimate(glucoseType, draw) < 150.0
  {
  }

  /** `updateSpO2` on the normalised channels, guarded: skipped while
      calibrating. */
  function UpdateSpO2(a: Analyzer, n: Rppg.Channels): (r: Analyzer)
    ensures a.calibrationPhase ==> r == a
    ensures !a.calibrationPhase ==> r == a.(vitals := a.vitals.(spo2 := SpO2Guarded(n, a.vitals.spo2)))
  {
    if a.calibrationPhase then a
    else a.(vitals := a.vitals.(spo2 := SpO2Guarded(n, a.vitals.spo2)))
  }

  /** `updateBloodPressure`: skipped while calibrating. */
  function UpdateBloodPressure(a: Analyzer, draw: real): (r: Analyzer)
    ensures a.calibrationPhase ==> r == a
    ensures !a.calibrationPhase ==>
      r == a.(vitals := a.vitals.(systolic := SystolicFromPtt(Ptt(draw)), diastolic := DiastolicFromPtt(Ptt(draw))))
  {
    if a.calibrationPhase then a
    else
      var ptt := Ptt(draw);
      a.(vitals := a.vitals.(systolic := SystolicFromPtt(ptt), diastolic := DiastolicFromPtt(ptt)))
  }

  /** `updateGlucose`: skipped while calibrating. */
  function UpdateGlucose(a: Analyzer, glucoseType: string, draw: real): (r: Analyzer)
    ensures a.calibrationPhase ==> r == a
    ensures !a.calibrationPhase ==> r == a.(vitals := a.vitals.(glucose := GlucoseEstimate(glucoseType, draw)))
  {
    if a.calibrationPhase then a
    else a.(vitals := a.vitals.(glucose := GlucoseEstimate(glucoseType, draw)))
  }

  // ----------------------------------------------------------- calibration

  /** The counter advances only while calibrating; the phase ends when it
      reaches `CalibrationFrames` and is never re-entered. */
  function CalibrationStep(a: Analyzer): (r: Analyzer)
    ensures r.vitals == a.vitals && r.rrIntervals == a.rrIntervals
    ensures !a.calibrationPhase ==> r == a
    ensures a.calibrationPhase ==> r.calibrationCounter == a.calibrationCounter + 1
    ensures a.calibrationPhase ==> (r.calibrationPhase <==> a.calibrationCounter + 1 < CalibrationFrames)
  {
    if a.calibrationPhase then
      var counter := a.calibrationCounter + 1;
      a.(calibrationCounter := counter, calibrationPhase := !(counter >= CalibrationFrames))
    else a
  }

  // ------------------------------------------------------------ the step

  /** What every reachable analyzer satisfies: the bounded, spaced history,
      the calibration counter agreeing with the phase flag, and every
      reported vital inside its range. */
  predicate Valid(a: Analyzer)
  {
    && |a.rrIntervals| <= MaxIntervals
    && IntervalsSpaced(a.rrIntervals)
    && a.calibrationCounter <= CalibrationFrames
    && (a.calibrationPhase <==> a.calibrationCounter < CalibrationFrames)
    && 0.0 <= a.vitals.heartRate <= 3000.0
    && a.vitals.hrvSquared >= 0.0 && a.vitals.sdnnSquared >= 0.0
    && 90.0 <= a.vitals.spo2 <= 100.0
    && 90.0 <= a.vitals.systolic <= 180.0
    && 60.0 <= a.vitals.diastolic <= 120.0
    && 70.0 <= a.vitals.glucose <= 180.0
  }

  /** The estimator and calibration steps of a cycle keep the state
      invariant, whatever the signals and draws. */
  lemma EstimatorsKeepValid(a: Analyzer, n: Rppg.Channels, glucoseType: string, inputs: CycleInputs)
    requires Valid(a)
    ensures Valid(CalibrationStep(UpdateGlucose(UpdateBloodPressure(UpdateSpO2(a, n), inputs.pttDraw), glucoseType, inputs.glucoseDraw)))
  {
  }

  /** `updateVitals`: one processing cycle.  Absent signals change nothing.
      The estimators test the calibration flag before the counter advances,
      so the cycle that ends calibration still leaves SpO2, pressure and
      glucose alone. */
  function UpdateVitals(a: Analyzer, signals: Option<Rppg.Signals>, glucoseType: string, inputs: CycleInputs): (r: Analyzer)
    ensures signals.None? ==> r == a
    ensures Valid(a) ==> Valid(r)
    ensures r.calibrationPhase ==> a.calibrationPhase
    ensures !a.calibrationPhase ==> r.calibrationCounter == a.calibrationCounter && !r.calibrationPhase
    ensures a.calibrationPhase && signals.Some? ==>
      r.calibrationCounter == a.calibrationCounter + 1 && (r.calibrationPhase <==> a.calibrationCounter + 1 < CalibrationFrames)
    ensures a.calibrationPhase ==>
      && r.vitals.spo2 == a.vitals.spo2 && r.vitals.glucose == a.vitals.glucose
      && r.vitals.systolic == a.vitals.systolic && r.vitals.diastolic == a.vitals.diastolic
    ensures signals.Some? ==>
      var h := UpdateHeartRate(a, signals.value.filtered.g);
      && r.rrIntervals == h.rrIntervals
      && r.vitals.heartRate == h.vitals.heartRate
      && r.vitals.hrvSquared == h.vitals.hrvSquared
      && r.vitals.sdnnSquared == h.vitals.sdnnSquared
      && r.vitals.respirationRate == inputs.respirationRate
    ensures !a.calibrationPhase && signals.Some? ==>
      && r.vitals.spo2 == SpO2Guarded(signals.value.normalized, a.vitals.spo2)
      && r.vitals.systolic == SystolicFromPtt(Ptt(inputs.pttDraw))
      && r.vitals.diastolic == DiastolicFromPtt(Ptt(inputs.pttDraw))
      && r.vitals.glucose == GlucoseEstimate(glucoseType, inputs.glucoseDraw)
    ensures !a.calibrationPhase && signals.Some? ==>
      && (90.0 <= a.vitals.spo2 <= 100.0 ==> 90.0 <= r.vitals.spo2 <= 100.0)
      && 90.0 <= r.vitals.systolic <= 180.0
      && 60.0 <= r.vitals.diastolic <= 120.0
      && GlucoseRange(glucoseType).0 <= r.vitals.glucose <= GlucoseRange(glucoseType).1
  {
    match signals
    case None => a
    case Some(s) =>
      var a1 := UpdateHeartRate(a, s.filtered.g);
      var a2 := a1.(vitals := a1.vitals.(respirationRate := inputs.respirationRate));
      var a3 := UpdateSpO2(a2, s.normalized);
      var a4 := UpdateBloodPressure(a3, inputs.pttDraw);
      var a5 := UpdateGlucose(a4, glucoseType, inputs.glucoseDraw);
      if Valid(a) then
        UpdateHeartRateBounds(a, s.filtered.g);
        UpdateHeartRateHistory(a, s.filtered.g);
        EstimatorsKeepValid(a2, s.normalized, glucoseType, inputs);
        CalibrationStep(a5)
      else CalibrationStep(a5)
  }

  /** One call of `updateVitals` as the caller makes it. */
  datatype Frame = Frame(signals: Option<Rppg.Signals>, glucoseType: string, inputs: CycleInputs)

  /** The analyzer after a run of frames, in order. */
  function Run(a: Analyzer, frames: seq<Frame>): Analyzer
    decreases |frames|
  {
    if |frames| == 0 then a
    else
      var f := frames[|frames| - 1];
      UpdateVitals(Run(a, frames[..|frames| - 1]), f.signals, f.glucoseType, f.inputs)
  }

  /** Frames that carried signals. */
  function Processed(frames: seq<Frame>): nat
    decreases |frames|
  {
    if |frames| == 0 then 0
    else Processed(frames[..|frames| - 1]) + (if frames[|frames| - 1].signals.Some? then 1 else 0)
  }

  /** Every run from the initial analyzer stays valid. */
  lemma {:induction false} RunValid(frames: seq<Frame>)
    ensures Valid(Run(Initial(), frames))
    decreases |frames|
  {
    if |frames| > 0 {
      RunValid(frames[..|frames| - 1]);
    }
  }

  /** Calibration over a run: the counter counts processed frames up to 90,
      the phase ends exactly with the 90th, and until then SpO2, pressure
      and glucose keep their initial values. */
  lemma {:induction false} CalibrationRun(frames: seq<Frame>)
    ensures var r := Run(Initial(), frames);
      && r.calibrationCounter == (if Processed(frames) < CalibrationFrames then Processed(frames) else CalibrationFrames)
      && (r.calibrationPhase <==> Processed(frames) < CalibrationFrames)
    ensures Processed(frames) <= CalibrationFrames ==>
      var v := Run(Initial(), frames).vitals;
      v.spo2 == 98.0 && v.systolic == 120.0 && v.diastolic == 80.0 && v.glucose == 100.0
    decreases |frames|
  {
    if |frames| > 0 {
      CalibrationRun(frames[..|frames| - 1]);
    }
  }
}

=== FILE: wrappers.dfy ===
/** Optional values: the source's `null` returns and early exits. */
module Wrappers {

  datatype Option<+T> = None | Some(value: T)
}
